=== FILE: README.md ===
# StoolDesign seat planner and FabMo job submission, in Dafny

This project models two pieces of the StoolDesign Fusion 360 add-in.

**The seat G-code planner** (`generateGCode` and its file-writing twin
`processSketchesOld` in `StoolDesign.py`):
- The G-code program always has the same shape. It begins with a fixed
  header: inches, feed rate 60, retract, spindle on, a 2 s dwell.
- Every visible sketch that carries the seat attribute is then cut:
  - first, one pass over its lines per cutting depth. A "last point" cursor
    starts at the sentinel (-1000, -1000, -1000). A line that starts at the
    cursor is cut directly. Any other line gets a retract, a rapid move to its
    start and a plunge first. Each pass closes with a retract.
  - then, each circle (as its stroke vertices) at every depth, in turn.
- A fixed footer ends the program: spindle off, home, end of program.
- The planner builds the program as a list of `Cmd` values. It is rendered
  to text afterwards.

**The Cut Seat gate**: the command submits the program only when it is
non-empty and exactly one tool answers.

**The submission side** (`Modules/fabmo.py`):
- the multipart/form-data encoder of RFC 7578, with the delimiter syntax of
  section 5.1.1 of RFC 2046. It is a class with `boundary` and
  `contentType`. `Iter` yields the chunks and `Encode` joins them.
- `submit_job`'s argument defaults, the metadata it posts, the payload it
  uploads and its verdict on the server's reply;
- `get_status`'s verdict;
- `FabMoTool.make`.

Modules:
- `Wrappers`: `Option` and `Result`.
- `Sequences`: associativity of concatenation, cited by the loop proofs.
- `Text`: Python's `str` of an integer, and UTF-8 with a strict decoder and
  its round trip.
- `GCode`: the command datatype and its rendering.
- `ToolPath`: the planner's output as functions of its inputs.
- `ToolPathFacts`: the properties of that output.
- `StoolDesign`: the imperative planner, the file writer and the Cut Seat gate.
- `Multipart`: the encoder.
- `FabMo`: the tool and job-submission logic.

Values the host or a library supplies are parameters:
- `inch` for `toInches`;
- `same` for `Point3D.isEqualTo`;
- `guess` for `mimetypes.guess_type`;
- the boundary for `uuid4().hex`;
- the parsed HTTP replies.

Two details of the line passes:
- The "last point" sentinel is the 3-D point (-1000, -1000, -1000)
  (StoolDesign.py:134).
- Points are compared with the host's `isEqualTo` (StoolDesign.py:139), which
  is the parameter `same`. `ToolPathFacts.Exact` is exact equality, used in
  `SquareScenario`.

## Model

| member | source | states |
|---|---|---|
| Text.NatText | Modules/fabmo.py:136-137 | `str` of a natural number is a non-empty digit string with no leading zero |
| Text.NatTextRoundTrip | Modules/fabmo.py:136-137 | reading the digits back gives the number |
| Text.IntText | Modules/fabmo.py:136-137 | `str` of an integer starts with '-' exactly when it is negative, digits otherwise |
| Text.IntTextRoundTrip | Modules/fabmo.py:136-137 | reading the text back gives the integer |
| Text.CharUtf8 | Modules/fabmo.py:130 | a character encodes to 1 to 4 bytes, to one byte exactly when it is ASCII, and that byte is its code |
| Text.Utf8Append | Modules/fabmo.py:130-151 | encoding piece by piece, as `iter` does, gives the encoding of the whole text |
| Text.CharUtf8Decodes | Modules/fabmo.py:130 | each character's bytes form one well-formed sequence that decodes to that character |
| Text.Utf8RoundTrip | Modules/fabmo.py:78 | the strict decoder gives back exactly the text that `encode('utf-8')` encoded |
| GCode.Render | StoolDesign.py:120-176 | each command's line text (g20, g1 f60, g0 z…, g0 x… y…, g1 z…, g1 x… y…, m4, g4 p2, m5, g0 x0 y0, m30) opens with a G or M word |
| ToolPath.Header | StoolDesign.py:119-124 | the five header commands start with inches; the lift to the retract height is the only motion among them |
| ToolPath.Footer | StoolDesign.py:173-176 | spindle off first, end of program last; the rapid move home (g0 x0 y0) is its only motion |
| ToolPath.LineCmds | StoolDesign.py:139-147 | a line is one cut exactly when it starts at the cursor, and contains a plunge to the depth exactly when it does not; either way it ends with a cut to the line's end |
| ToolPath.Chain | StoolDesign.py:136-147 | definition: each line's commands against the cursor left by the line before (properties in `ToolPathFacts.ChainFacts`, `ChainCounts`, `ContinuousChain`) |
| ToolPath.LinePass | StoolDesign.py:134-149 | definition: the line chain at one depth and the closing retract (properties in `ToolPathFacts.LinePassFacts`) |
| ToolPath.LinePasses | StoolDesign.py:133-149 | definition: one line pass per depth, in list order (properties in `ToolPathFacts.LinePassesFacts`, `LinePassesPlunges`) |
| ToolPath.StrokeCuts | StoolDesign.py:159-167 | a stroke cut has one command per vertex plus the plunge, and none for no vertex |
| ToolPath.CirclePass | StoolDesign.py:159-169 | definition: the stroke cut at one depth and the closing retract (properties in `ToolPathFacts.CirclePassShape`, `CirclePassFacts`) |
| ToolPath.CirclePasses | StoolDesign.py:158-169 | definition: one circle pass per depth, in list order (properties in `ToolPathFacts.CirclePassesFacts`) |
| ToolPath.Circles | StoolDesign.py:152-169 | definition: every circle at every depth, circle after circle (properties in `ToolPathFacts.CirclesFacts`) |
| ToolPath.SketchCmds | StoolDesign.py:128-169 | definition: the line passes then the circles of a visible sketch with the seat attribute, nothing otherwise (properties in `ToolPathFacts.SketchPlunges`, `SketchFacts`) |
| ToolPath.AllSketches | StoolDesign.py:128-169 | definition: the sketches' commands in design order (properties in `ToolPathFacts.AllSketchesFacts`) |
| ToolPath.Program | StoolDesign.py:117-178 | definition: header, all sketches, footer (properties in `ToolPathFacts.ProgramFrame`, `ProgramGuarded`, `ProgramText`) |
| GCode.RenderAll | StoolDesign.py:117-178 | definition: each command's line followed by "\n", in program order; the `gCode` text generateGCode returns and what processSketchesOld's writes add up to (properties in `RenderAllOne`, `RenderAllAppend`, `RenderAllPrefix`, `RenderAllEmpty`, `ToolPathFacts.ProgramText`) |
| GCode.LinesAppend | StoolDesign.py:117-176 | text made of lines can be built by appending lines |
| GCode.RenderAllAppend | StoolDesign.py:117-176 | rendering a program in two halves and appending gives the rendering of the whole |
| GCode.RenderAllOne | StoolDesign.py:194-250 | each command is written as exactly one line |
| GCode.RenderAllPrefix | StoolDesign.py:194-250 | writing one more command appends exactly its line to the text so far |
| GCode.RenderAllEmpty | StoolDesign.py:117-178 | the text is empty exactly when the program is |
| ToolPathFacts.Join | StoolDesign.py:133-169 | appending a guarded block after a guarded program keeps it guarded when the block starts safely or the program ends retracted |
| ToolPathFacts.PlungesAppend | StoolDesign.py:133-169 | the plunges of two blocks in sequence are the first block's plunges, then the second's |
| ToolPathFacts.ChainFacts | StoolDesign.py:136-147 | a pass's line commands are all motions, are guarded when run after a retract, and never start with a rapid XY move or a plunge |
| ToolPathFacts.LinePassFacts | StoolDesign.py:133-149 | a line pass also ends with the retract, even with no lines |
| ToolPathFacts.LinePassesFacts | StoolDesign.py:133-149 | the passes at all depths are guarded motions that end retracted when there is a depth |
| ToolPathFacts.LineCmdsCounts | StoolDesign.py:139-147 | a line from the cursor gives one command and no plunge; any other line gives exactly retract, rapid to its start, plunge to the pass depth, cut to its end |
| ToolPathFacts.ChainCounts | StoolDesign.py:136-147 | a pass has one command per line plus three per line not starting at the cursor, and one plunge to its depth per such line |
| ToolPathFacts.ContinuousChain | StoolDesign.py:134-147 | when the first line does not start at the sentinel, connected lines are cut with one retract, one rapid, one plunge, then one cut per line end, in order |
| ToolPathFacts.FirstLineOfPass | StoolDesign.py:133-141 | every pass opens with the first line's commands taken against the sentinel cursor |
| ToolPathFacts.FirstLinePlunges | StoolDesign.py:133-147 | the first line of a pass plunges unless its start matches the sentinel, in which case it is cut with no plunge (both directions) |
| ToolPathFacts.LinePassesPlunges | StoolDesign.py:133-149 | the line plunges go depth by depth in list order, the same number at each depth |
| ToolPathFacts.StrokeCutsShape | StoolDesign.py:159-167 | a stroke cut is a rapid to the first vertex, a plunge, then one cut per further vertex in order; an empty stroke list gives nothing |
| ToolPathFacts.CirclePassShape | StoolDesign.py:158-169 | a circle pass is that cut followed by one retract; an empty stroke list gives the retract alone |
| ToolPathFacts.StrokeCutsFacts | StoolDesign.py:159-167 | a stroke cut is guarded motion with one plunge, to its depth, when it has a vertex |
| ToolPathFacts.CirclePassFacts | StoolDesign.py:158-169 | a circle pass is guarded motion that ends retracted, with one plunge when it has a vertex |
| ToolPathFacts.CirclePassesFacts | StoolDesign.py:158-169 | a circle is cut at every depth in list order, and is empty exactly when the depth list is |
| ToolPathFacts.CirclesFacts | StoolDesign.py:152-169 | each circle is cut to every depth before the next starts; the plunges follow circle order, then depth order |
| ToolPathFacts.SketchFacts | StoolDesign.py:128-169 | a sketch's commands are guarded motions |
| ToolPathFacts.SketchPlunges | StoolDesign.py:128-169 | in a seat sketch all line passes come before any circle; a sketch that is hidden or lacks the attribute contributes nothing |
| ToolPathFacts.AllSketchesFacts | StoolDesign.py:126-169 | all sketches together are guarded motions, and nothing when no sketch is a seat |
| ToolPathFacts.ProgramFrame | StoolDesign.py:119-176 | the program starts with the five header commands and ends with the three footer commands, with only motions between; with no seat sketch it is header then footer |
| ToolPathFacts.ProgramGuarded | StoolDesign.py:119-176 | every rapid XY move to a cut's start comes right after a retract and every plunge right after such a move (the move home is `ProgramHomesRetracted`) |
| ToolPathFacts.SketchEndsRetracted | StoolDesign.py:128-169 | a sketch's commands are empty or end with a retract |
| ToolPathFacts.AllSketchesEndRetracted | StoolDesign.py:128-169 | all sketches' commands together are empty or end with a retract |
| ToolPathFacts.ProgramHomesRetracted | StoolDesign.py:119-176 | the move home g0 x0 y0 follows the spindle stop, and the last motion before it is a retract: the last cut's, or the header's lift when nothing was cut |
| ToolPathFacts.ConstantsText | StoolDesign.py:121-124 | feed rate and dwell are written as "g1 f60" and "g4 p2" |
| ToolPathFacts.HeaderText | StoolDesign.py:119-124 | the header text is exactly g20, g1 f60, g0 z&lt;retract&gt;, m4, g4 p2 |
| ToolPathFacts.FooterText | StoolDesign.py:173-176 | the footer text is exactly m5, g0 x0 y0, m30 |
| ToolPathFacts.ProgramText | StoolDesign.py:117-178 | the program text is the header lines, the sketch lines and the footer lines |
| ToolPathFacts.ProgramTextNonEmpty | StoolDesign.py:117-178 | the generated text is never empty |
| ToolPathFacts.ConfiguredSketch | StoolDesign.py:18-19 | with retract height 0.5 and depths -0.09 then -0.1, a seat sketch's lines are cut in a pass at -0.09 then one at -0.1, its line plunges go to -0.09 before any goes to -0.1, and its circles follow |
| ToolPathFacts.SquareScenario | StoolDesign.py:133-149 | a connected unit square at one depth gives a lift, a rapid move to (0,0), one plunge, four cuts and a closing retract between header and footer |
| StoolDesign.AppendLinePass | StoolDesign.py:134-149 | the line loop, with its cursor, appends exactly one line pass |
| StoolDesign.AppendLinePasses | StoolDesign.py:133-149 | the depth loop appends the line passes at every depth in order |
| StoolDesign.AppendCirclePass | StoolDesign.py:159-169 | the vertex loop, with its first-point flag, appends exactly one circle pass |
| StoolDesign.AppendCirclePasses | StoolDesign.py:158-169 | the depth loop appends one circle pass per depth in order |
| StoolDesign.AppendSeatSketch | StoolDesign.py:130-169 | a seat sketch appends its line passes, then its circles |
| StoolDesign.GenerateGCode | StoolDesign.py:112-183 | the nested loops produce exactly Program of the inputs, and its text is never empty |
| StoolDesign.TextFile.Open | StoolDesign.py:191 | opening for writing truncates the file |
| StoolDesign.TextFile.Write | StoolDesign.py:194 | a write appends its text |
| StoolDesign.TextFile.Close | StoolDesign.py:251 | closing keeps the contents |
| StoolDesign.ProcessSketchesOld | StoolDesign.py:186-257 | the file ends up holding exactly the text of the same program, is closed, and the result is True |
| StoolDesign.CutSeat | StoolDesign.py:25-63 | submits exactly when the program is non-empty and exactly one tool was found, as "stool.nc" named "Stool for " + name and described "Submitted by: " + name + ", Email: " + email; declines on an empty program; a find_tools failure, zero tools and several tools abort with their own messages |
| StoolDesign.CutSeatOnGenerated | StoolDesign.py:30-50 | for a generated program the outcome depends only on the tool count |
| StoolDesign.CutSeatArgumentsKept | StoolDesign.py:52-56 | the job's file name, name and description pass submit_job's defaulting unchanged |
| Multipart.MultipartFormdataEncoder.constructor | Modules/fabmo.py:112-114 | the content type is "multipart/form-data; boundary=" followed by the boundary |
| Multipart.MultipartFormdataEncoder.Iter | Modules/fabmo.py:124-151 | the yielded chunks are five per field, then six per file, then the close delimiter, in input order |
| Multipart.MultipartFormdataEncoder.Encode | Modules/fabmo.py:153-157 | returns the content type and the chunks concatenated in order, which is the body |
| Multipart.MimeType | Modules/fabmo.py:145 | the file part's Content-Type is never empty |
| Multipart.FieldPartText | Modules/fabmo.py:131-139 | a field part opens with the delimiter line "--B\r\n" and ends with "\r\n" |
| Multipart.FilePartHead | Modules/fabmo.py:140-146 | a file part's headers open with the delimiter line and end with the blank line "\r\n\r\n" |
| Multipart.Body | Modules/fabmo.py:124-151 | definition: every field part, every file part, then the close delimiter (properties in `BodyOpens`, `BodyCloses`, `ChunksFlatten`) |
| Multipart.Chunks | Modules/fabmo.py:124-151 | definition: the chunk stream `iter` yields (properties in `ChunksFlatten`, `ChunkCount`) |
| Multipart.FlattenAppend | Modules/fabmo.py:153-157 | writing two chunk lists in sequence writes their bytes in sequence |
| Multipart.FieldChunksBytes | Modules/fabmo.py:131-139 | a field's chunks make "--B\r\n", the disposition with its name, a blank line, the value, "\r\n" |
| Multipart.FileChunksBytes | Modules/fabmo.py:140-150 | a file's chunks make its headers, then its bytes verbatim, then "\r\n" |
| Multipart.FieldChunkListBytes | Modules/fabmo.py:131-139 | the chunks of all fields make their parts in input order |
| Multipart.FileChunkListBytes | Modules/fabmo.py:140-150 | the chunks of all files make their parts in input order |
| Multipart.ChunksFlatten | Modules/fabmo.py:124-157 | all chunks together make the body: every field part, then every file part, then the close delimiter |
| Multipart.ChunkCount | Modules/fabmo.py:124-151 | five chunks per field, six per file, one to close |
| Multipart.PartsAppend | Modules/fabmo.py:131-150 | the parts keep list order under concatenation |
| Multipart.BodyCloses | Modules/fabmo.py:151 | the body ends with exactly "--B--\r\n" and is that alone when there are no parts |
| Multipart.BodyOpens | Modules/fabmo.py:133-143 | a body with a part opens with "--B\r\n" |
| Multipart.MimeTypeDefault | Modules/fabmo.py:145 | the part's type is the guess, or application/octet-stream when the guess is None or empty |
| Multipart.IntFieldText | Modules/fabmo.py:136-137 | an integer value is written through `str`, so 0 is "0" |
| FabMo.Make | Modules/fabmo.py:105-107 | a tool is made exactly when the descriptor has an interface; it takes that interface's address, the server port and the host name |
| FabMo.MakeDescribe | Modules/fabmo.py:105-107 | make recovers a tool from the descriptor announcing it |
| FabMo.MakeFirstInterface | Modules/fabmo.py:107 | interfaces after the first change nothing |
| FabMo.ApplyDefaults | Modules/fabmo.py:52-54 | file name and name are never empty; a missing name is the defaulted file name |
| FabMo.DefaultsKeepGiven | Modules/fabmo.py:52-54 | truthy arguments are kept; a falsy file name becomes "job.nc", a falsy name the defaulted file name, and a falsy description "" |
| FabMo.DefaultsAllMissing | Modules/fabmo.py:52-54 | with no arguments the job is ("job.nc", "job.nc", "") |
| FabMo.DefaultsIdempotent | Modules/fabmo.py:52-54 | applying the defaults again changes nothing |
| FabMo.MetadataOf | Modules/fabmo.py:61-69 | the metadata lists one file with the defaulted names and an empty meta map |
| FabMo.PayloadFields | Modules/fabmo.py:78 | the fields are exactly key = the reply's key and index = 0, written "0" |
| FabMo.PayloadFiles | Modules/fabmo.py:78 | one file part named "file" with the job's file name, whose bytes decode to the code |
| FabMo.PayloadText | Modules/fabmo.py:78 | definition: the key part, the index part written "0", the headers of the "file" part, the code and the close delimiter, as text |
| FabMo.PayloadBytes | Modules/fabmo.py:78 | the payload body is the UTF-8 encoding of the payload text |
| FabMo.PayloadIsText | Modules/fabmo.py:78 | the body is the UTF-8 encoding of the key part, the index part, the file headers, the code and the close delimiter, and strict UTF-8 decoding gives that text back |
| FabMo.UploadOutcome | Modules/fabmo.py:87-89 | fails with the server's message exactly when the status is not "success", and otherwise gives the first job |
| FabMo.StatusOutcome | Modules/fabmo.py:98-102 | fails with the server's message exactly when the status is "error", and otherwise gives data.status |
| FabMo.ChecksDiffer | Modules/fabmo.py:87-102 | any other status word fails submit_job's check but passes get_status's |
| FabMo.SuccessPassesBoth | Modules/fabmo.py:87-102 | a reply that submit_job accepts also passes get_status's check |
| FabMo.SubmitJob | Modules/fabmo.py:44-89 | sends the metadata of the defaulted arguments and a multipart payload that is exactly the UTF-8 encoding of the payload text, and returns the verdict on the reply |

## Left out

- The host CAD API (design, sketches, attributes, visibility, command inputs, handler registration, `run`/`stop`) is not modelled. Sketches enter as plain `Sketch` values.
- The dialog's validate-inputs handler is left out. It belongs to the host.
- Circle flattening by the host's stroke evaluator is left out. Each circle enters as its list of stroke vertices.
- `toInches` is the parameter `inch` (centimetres / 2.54 to four decimals). It is not interpreted, so no rounding is verified.
- `Point3D.isEqualTo` is the parameter `same`. Its tolerance is not modelled.
- The decorative generators (mesh, polygons, flower, circles, rectangles) are left out. They are driven by randomness and floating-point trigonometry.
- StoolDesign.GenerateGCode: the `except` path that shows a message box and returns '' is left out. It is reached only when the host fails. `CutSeat` still takes the empty program as input.
- StoolDesign.ProcessSketchesOld: the commands are planned first and then written line by line, rather than written as the loops run. The file's final contents are the same. A failure to open or write the file, which the source reports as False, is not modelled.
- StoolDesign.CutSeat: the message boxes, `show_job_manager`, the "Submitted Job" message and the reply of the submission itself are not modelled. The outcome records what would be submitted.
- `find_tools` is left out: a network query to the tool minder. Its result enters `CutSeat` as `Result<seq<FabMoTool>, string>`.
- The HTTP connections, JSON encoding and parsing, `webbrowser` launches, `uuid4` and `mimetypes.guess_type` are not modelled. Replies, the boundary and the guess are parameters.
- Multipart.MultipartFormdataEncoder.constructor: the boundary is not constrained to the 32 hexadecimal digits of `uuid4().hex`.
- Multipart.MultipartFormdataEncoder.Iter: the source's `iter` yields (bytes, length) pairs; the model yields the bytes alone, because `encode` unpacks the length and never reads it.
- The Python 2/3 `u` helper of the encoder is left out. On Python 3 it returns strings unchanged.
- Multipart: float field values are not modelled, since `str` of a float is floating-point formatting. Booleans, which Python treats as integers, are not modelled either. Values are strings or integers.
- FabMo.PayloadIsText: the multipart structure is not parsed back. The source does not escape `"` in field or file names and does not check that the boundary line is absent from the key or the code, so a server's multipart parse would not always recover those values.
- `codes.encode('utf-8')` raises UnicodeEncodeError on a lone surrogate. A Dafny `char` cannot hold one, so that error is not modelled.
- FabMo.Make: descriptors missing a key are not modelled. The descriptor is a typed value, so only the missing-interface case is an error.
- FabMo.UploadOutcome: a reply with status "success" but no job is `NoJobInReply`. The source raises an IndexError there.
- `Modules/example.py` is a demonstration script making network calls, and is left out.

=== FILE: fabmo.dfy ===
/** The decision logic of Modules/fabmo.py's FabMoTool around its HTTP calls:
    building a tool from a discovery descriptor, defaulting the arguments of
    submit_job, the metadata it posts, the multipart payload it uploads, and
    how the parsed replies of submit_job and get_status are judged. The HTTP
    exchanges themselves are not modelled: each reply enters as an already
    parsed value. */
module FabMo {
  import opened Wrappers
  import opened Text
  import opened Multipart

  /** A FabMo tool on the network, as FabMoTool's constructor stores it. */
  datatype FabMoTool = FabMoTool(ip: string, port: int, hostname: string)

  /** The parts of a tool-minder descriptor that `make` reads. */
  datatype NetworkInterface = NetworkInterface(ipAddress: string)
  datatype ToolDescriptor = ToolDescriptor(network: seq<NetworkInterface>, serverPort: int, hostname: string)

  // ---------------------------------------------------------------------------
  // make
  // ---------------------------------------------------------------------------

  /** `FabMoTool.make`: the address of the first network interface, the server
      port and the host name. A descriptor with no interface makes no tool
      (the source fails on the index). */
  function Make(d: ToolDescriptor): (t: Option<FabMoTool>)
    ensures t.Some? <==> |d.network| > 0
    ensures t.Some? ==> t.value.ip == d.network[0].ipAddress
    ensures t.Some? ==> t.value.port == d.serverPort && t.value.hostname == d.hostname
  {
    if |d.network| == 0 then None
    else Some(FabMoTool(d.network[0].ipAddress, d.serverPort, d.hostname))
  }

  /** A descriptor announcing a tool on a single interface. */
  function Describe(t: FabMoTool): ToolDescriptor {
    ToolDescriptor([NetworkInterface(t.ip)], t.port, t.hostname)
  }

  /** `make` recovers every tool from the descriptor announcing it. */
  lemma MakeDescribe(t: FabMoTool)
    ensures Make(Describe(t)) == Some(t)
  {
  }

  /** `make` reads only the first interface: interfaces after it change nothing. */
  lemma MakeFirstInterface(d: ToolDescriptor, more: seq<NetworkInterface>)
    requires |d.network| > 0
    ensures Make(d.(network := d.network + more)) == Make(d)
    ensures Make(d.(network := d.network[..1])) == Make(d)
  {
  }

  // ---------------------------------------------------------------------------
  // submit_job: argument defaults and metadata
  // ---------------------------------------------------------------------------

  /** Python truthiness of an optional string argument: None and "" are false. */
  predicate Truthy(v: Option<string>) {
    v.Some? && v.value != ""
  }

  /** `v or fallback`. */
  function Or(v: Option<string>, fallback: string): string {
    if Truthy(v) then v.value else fallback
  }

  const DefaultFilename: string := "job.nc"

  datatype JobArgs = JobArgs(filename: string, name: string, description: string)

  /** The defaults submit_job applies, in order: the file name first, then the
      name (which falls back to the already defaulted file name), then the
      description. */
  function ApplyDefaults(filename: Option<string>, name: Option<string>, description: Option<string>): (a: JobArgs)
    ensures a.filename != "" && a.name != ""
    ensures !Truthy(name) ==> a.name == a.filename
  {
    var f := Or(filename, DefaultFilename);
    var n := Or(name, f);
    var d := Or(description, "");
    JobArgs(f, n, d)
  }

  /** Truthy arguments are kept as given; falsy ones take their defaults. */
  lemma DefaultsKeepGiven(filename: Option<string>, name: Option<string>, description: Option<string>)
    ensures var a := ApplyDefaults(filename, name, description);
            && (Truthy(filename) ==> a.filename == filename.value)
            && (!Truthy(filename) ==> a.filename == "job.nc")
            && (Truthy(name) ==> a.name == name.value)
            && (!Truthy(name) ==> a.name == a.filename)
            && (Truthy(description) ==> a.description == description.value)
            && (!Truthy(description) ==> a.description == "")
  {
  }

  /** With every argument missing, the job is "job.nc", named "job.nc", with no description. */
  lemma DefaultsAllMissing()
    ensures ApplyDefaults(None, None, None) == JobArgs("job.nc", "job.nc", "")
    ensures ApplyDefaults(Some(""), Some(""), Some("")) == JobArgs("job.nc", "job.nc", "")
  {
  }

  /** Defaulting is idempotent: passing the defaulted arguments again changes nothing. */
  lemma DefaultsIdempotent(filename: Option<string>, name: Option<string>, description: Option<string>)
    ensures var a := ApplyDefaults(filename, name, description);
            ApplyDefaults(Some(a.filename), Some(a.name), Some(a.description)) == a
  {
  }

  /** One entry of the metadata request's `files` list. */
  datatype FileMeta = FileMeta(filename: string, name: string, description: string)

  /** The metadata request body, before JSON encoding. */
  datatype Metadata = Metadata(files: seq<FileMeta>, meta: map<string, string>)

  function MetadataOf(a: JobArgs): (m: Metadata)
    ensures |m.files| == 1 && m.meta == map[]
    ensures m.files[0] == FileMeta(a.filename, a.name, a.description)
  {
    Metadata([FileMeta(a.filename, a.name, a.description)], map[])
  }

  // ---------------------------------------------------------------------------
  // submit_job: the payload upload
  // ---------------------------------------------------------------------------

  /** The form fields of the payload: the key from the metadata reply, and index 0. */
  function PayloadFields(key: string): (fs: seq<FormField>)
    ensures |fs| == 2
    ensures fs[0].name == "key" && fs[0].value == Str(key)
    ensures fs[1].name == "index" && ValueText(fs[1].value) == "0"
  {
    IntFieldText(0);
    [FormField("key", Str(key)), FormField("index", Int(0))]
  }

  /** The single file of the payload: field "file", the job's file name, the code as UTF-8. */
  function PayloadFiles(filename: string, codes: string): (ps: seq<FileField>)
    ensures |ps| == 1 && ps[0].name == "file" && ps[0].filename == filename
    ensures DecodeUtf8(ps[0].content) == Some(codes)
  {
    Utf8RoundTrip(codes);
    [FileField("file", filename, Utf8(codes))]
  }

  /** The payload body as text: both field parts, the file part's headers, the
      code itself, and the close delimiter. */
  function PayloadText(boundary: string, key: string, filename: string, codes: string, guess: string -> Option<string>): string {
    FieldPartText(boundary, FormField("key", Str(key)))
    + FieldPartText(boundary, FormField("index", Int(0)))
    + FilePartHead(boundary, FileField("file", filename, Utf8(codes)), guess)
    + codes + CRLF + CloseDelimiter(boundary)
  }

  /** The payload body is the UTF-8 encoding of the key part, the index part,
      the file part's headers, the code and the close delimiter, and strict
      UTF-8 decoding gives that text back. Nothing here parses the multipart
      structure: names are not escaped and the boundary is not checked against
      the key or the code. */
  lemma PayloadIsText(boundary: string, key: string, filename: string, codes: string, guess: string -> Option<string>)
    ensures Body(boundary, PayloadFields(key), PayloadFiles(filename, codes), guess)
            == Utf8(PayloadText(boundary, key, filename, codes, guess))
    ensures DecodeUtf8(Body(boundary, PayloadFields(key), PayloadFiles(filename, codes), guess))
            == Some(PayloadText(boundary, key, filename, codes, guess))
  {
    PayloadBytes(boundary, key, filename, codes, guess);
    Utf8RoundTrip(PayloadText(boundary, key, filename, codes, guess));
  }

  lemma PayloadBytes(boundary: string, key: string, filename: string, codes: string, guess: string -> Option<string>)
    ensures Body(boundary, PayloadFields(key), PayloadFiles(filename, codes), guess)
            == Utf8(PayloadText(boundary, key, filename, codes, guess))
  {
    var fields, files := PayloadFields(key), PayloadFiles(filename, codes);
    var k, i := FieldPartText(boundary, fields[0]), FieldPartText(boundary, fields[1]);
    var h := FilePartHead(boundary, files[0], guess);
    var c := CloseDelimiter(boundary);
    TwoParts(fields, FieldPart(boundary));
    OnePart(files, FilePart(boundary, guess));
    Regroup(Utf8(k), Utf8(i), Utf8(h), Utf8(codes), Utf8(CRLF), Utf8(c));
    Utf8Six(k, i, h, codes, CRLF, c);
  }

  lemma OnePart<T>(xs: seq<T>, part: T -> seq<byte>)
    requires |xs| == 1
    ensures Parts(xs, part) == part(xs[0])
  {
    assert xs[..0] == [];
  }

  lemma TwoParts<T>(xs: seq<T>, part: T -> seq<byte>)
    requires |xs| == 2
    ensures Parts(xs, part) == part(xs[0]) + part(xs[1])
  {
    OnePart(xs[..1], part);
  }

  lemma Regroup(a: seq<byte>, b: seq<byte>, h: seq<byte>, x: seq<byte>, r: seq<byte>, c: seq<byte>)
    ensures (a + b) + (h + x + r) + c == a + b + h + x + r + c
  {
  }

  lemma Utf8Six(s1: string, s2: string, s3: string, s4: string, s5: string, s6: string)
    ensures Utf8(s1 + s2 + s3 + s4 + s5 + s6) == Utf8(s1) + Utf8(s2) + Utf8(s3) + Utf8(s4) + Utf8(s5) + Utf8(s6)
  {
    Utf8Append(s1 + s2 + s3 + s4 + s5, s6);
    Utf8Append(s1 + s2 + s3 + s4, s5);
    Utf8Append(s1 + s2 + s3, s4);
    Utf8Append(s1 + s2, s3);
    Utf8Append(s1, s2);
  }

  // ---------------------------------------------------------------------------
  // Judging the replies
  // ---------------------------------------------------------------------------

  /** The metadata reply: submit_job reads `data.key`. */
  datatype MetadataReply = MetadataReply(key: string)

  /** The upload reply: `status`, `message`, and the jobs under `data.data.jobs`. */
  datatype UploadReply<J> = UploadReply(status: string, message: string, jobs: seq<J>)

  datatype SubmitError = Rejected(message: string) | NoJobInReply

  /** submit_job's verdict on the upload reply: the server's message unless the
      status is "success", otherwise the first job. */
  function UploadOutcome<J>(r: UploadReply<J>): (o: Result<J, SubmitError>)
    ensures o == Failure(Rejected(r.message)) <==> r.status != "success"
    ensures o.Success? <==> r.status == "success" && |r.jobs| > 0
    ensures o.Success? ==> o.value == r.jobs[0]
  {
    if r.status != "success" then Failure(Rejected(r.message))
    else if |r.jobs| == 0 then Failure(NoJobInReply)
    else Success(r.jobs[0])
  }

  /** The status reply: `status`, `message`, and the tool state under `data.status`. */
  datatype StatusReply = StatusReply(status: string, message: string, toolStatus: string)

  /** get_status's verdict: the server's message if the status is "error",
      otherwise the tool's state. */
  function StatusOutcome(r: StatusReply): (o: Result<string, string>)
    ensures o.Failure? <==> r.status == "error"
    ensures o.Failure? ==> o.error == r.message
    ensures o.Success? ==> o.value == r.toolStatus
  {
    if r.status == "error" then Failure(r.message) else Success(r.toolStatus)
  }

  /** The two checks differ: only "success" passes submit_job, and only "error"
      fails get_status, so any other status word fails the one and passes the other. */
  lemma ChecksDiffer<J>(status: string, message: string, jobs: seq<J>, toolStatus: string)
    requires status != "success" && status != "error"
    ensures UploadOutcome(UploadReply(status, message, jobs)).Failure?
    ensures StatusOutcome(StatusReply(status, message, toolStatus)).Success?
  {
  }

  /** A reply that satisfies submit_job with a job also satisfies get_status. */
  lemma SuccessPassesBoth<J>(r: UploadReply<J>, toolStatus: string)
    requires UploadOutcome(r).Success?
    ensures StatusOutcome(StatusReply(r.status, r.message, toolStatus)) == Success(toolStatus)
  {
  }

  // ---------------------------------------------------------------------------
  // submit_job as a whole
  // ---------------------------------------------------------------------------

  /** What submit_job sends and what it concludes: the metadata request, the
      payload's content type and body, and the verdict on the upload reply.
      The two replies and the boundary the source draws are parameters; `tool`
      is the endpoint (address and port) the HTTP connection would open, which
      is not modelled, so nothing here reads it. */
  method SubmitJob<J>(tool: FabMoTool, codes: string, filename: Option<string>, name: Option<string>,
                      description: Option<string>, metadataReply: MetadataReply, boundary: string,
                      guess: string -> Option<string>, uploadReply: UploadReply<J>)
    returns (metadata: Metadata, contentType: string, body: seq<byte>, outcome: Result<J, SubmitError>)
    ensures metadata == MetadataOf(ApplyDefaults(filename, name, description))
    ensures contentType == "multipart/form-data; boundary=" + boundary
    ensures body == Utf8(PayloadText(boundary, metadataReply.key, ApplyDefaults(filename, name, description).filename, codes, guess))
    ensures DecodeUtf8(body)
            == Some(PayloadText(boundary, metadataReply.key, ApplyDefaults(filename, name, description).filename, codes, guess))
    ensures outcome == UploadOutcome(uploadReply)
  {
    var args := ApplyDefaults(filename, name, description);
    metadata := MetadataOf(args);
    var encoder := new MultipartFormdataEncoder(boundary);
    contentType, body := encoder.Encode(PayloadFields(metadataReply.key), PayloadFiles(args.filename, codes), guess);
    PayloadIsText(boundary, metadataReply.key, args.filename, codes, guess);
    outcome := UploadOutcome(uploadReply);
  }
}

=== FILE: gcode.dfy ===
/** The motion commands the seat planner emits, and their rendering as the
    line-oriented G-code text that StoolDesign.py produces. Coordinates are kept
    in the sketch's own unit (centimetres); the conversion and 4-digit
    formatting done by `toInches` is the parameter `inch` of the renderer. */
module GCode {
  import opened Text

  /** One line of the motion program. */
  datatype Cmd =
    | Inches                      // g20: coordinates are in inches
    | SetFeed(rate: nat)          // g1 f<rate>
    | RapidZ(z: real)             // g0 z<z>: rapid vertical move
    | RapidXY(x: real, y: real)   // g0 x<x> y<y>: rapid horizontal move
    | FeedZ(z: real)              // g1 z<z>: plunge at feed rate
    | FeedXY(x: real, y: real)    // g1 x<x> y<y>: cut at feed rate
    | SpindleOn                   // m4
    | Dwell(seconds: nat)         // g4 p<seconds>
    | SpindleOff                  // m5
    | Home                        // g0 x0 y0: rapid move to the XY origin (written literally, not through toInches)
    | EndProgram                  // m30

  /** Commands that move the tool, as opposed to modal settings and machine control. */
  predicate IsMotion(c: Cmd) {
    c.RapidZ? || c.RapidXY? || c.FeedZ? || c.FeedXY? || c.Home?
  }

  const FeedRate: nat := 60
  const SpinUpSeconds: nat := 2

  /** The text of one command, without its line break. */
  function Render(c: Cmd, inch: real -> string): (r: string)
    ensures |r| >= 2 && (r[0] == 'g' || r[0] == 'm')
  {
    match c
    case Inches => "g20"
    case SetFeed(rate) => "g1 f" + NatText(rate)
    case RapidZ(z) => "g0 z" + inch(z)
    case RapidXY(x, y) => "g0 x" + inch(x) + " y" + inch(y)
    case FeedZ(z) => "g1 z" + inch(z)
    case FeedXY(x, y) => "g1 x" + inch(x) + " y" + inch(y)
    case SpindleOn => "m4"
    case Dwell(s) => "g4 p" + NatText(s)
    case SpindleOff => "m5"
    case Home => "g0 x0 y0"
    case EndProgram => "m30"
  }

  /** Text made of lines, each ended by "\n". */
  function Lines(ls: seq<string>): string {
    if ls == [] then "" else ls[0] + "\n" + Lines(ls[1..])
  }

  lemma {:induction false} LinesAppend(a: seq<string>, b: seq<string>)
    ensures Lines(a + b) == Lines(a) + Lines(b)
  {
    if a == [] {
      assert a + b == b;
    } else {
      assert (a + b)[0] == a[0];
      assert (a + b)[1..] == a[1..] + b;
      LinesAppend(a[1..], b);
    }
  }

  /** The program text: every command rendered on its own line. */
  function RenderAll(cmds: seq<Cmd>, inch: real -> string): string {
    Lines(seq(|cmds|, i requires 0 <= i < |cmds| => Render(cmds[i], inch)))
  }

  /** Rendering a concatenation renders each half in turn. */
  lemma RenderAllAppend(a: seq<Cmd>, b: seq<Cmd>, inch: real -> string)
    ensures RenderAll(a + b, inch) == RenderAll(a, inch) + RenderAll(b, inch)
  {
    var la := seq(|a|, i requires 0 <= i < |a| => Render(a[i], inch));
    var lb := seq(|b|, i requires 0 <= i < |b| => Render(b[i], inch));
    assert seq(|a + b|, i requires 0 <= i < |a + b| => Render((a + b)[i], inch)) == la + lb;
    LinesAppend(la, lb);
  }

  /** A single command is one line of text. */
  lemma RenderAllOne(c: Cmd, inch: real -> string)
    ensures RenderAll([c], inch) == Render(c, inch) + "\n"
  {
    assert seq(1, i requires 0 <= i < 1 => Render([c][i], inch)) == [Render(c, inch)];
    assert Lines([Render(c, inch)]) == Render(c, inch) + "\n" + Lines([]);
  }

  /** Rendering one more command of a program adds that command's line. */
  lemma RenderAllPrefix(cmds: seq<Cmd>, k: nat, inch: real -> string)
    requires k < |cmds|
    ensures RenderAll(cmds[..k + 1], inch) == RenderAll(cmds[..k], inch) + (Render(cmds[k], inch) + "\n")
  {
    assert cmds[..k + 1] == cmds[..k] + [cmds[k]];
    RenderAllAppend(cmds[..k], [cmds[k]], inch);
    RenderAllOne(cmds[k], inch);
  }

  /** The text is empty exactly when there are no commands: every command renders to a line. */
  lemma RenderAllEmpty(cmds: seq<Cmd>, inch: real -> string)
    ensures RenderAll(cmds, inch) == "" <==> cmds == []
  {
  }
}

=== FILE: multipart.dfy ===
/** The multipart/form-data body built by Modules/fabmo.py's
    MultipartFormdataEncoder (RFC 7578, with the delimiter syntax of section
    5.1.1 of RFC 2046). The boundary is a parameter (the source draws it from
    uuid4) and the MIME type guessed from a file name is the parameter `guess`
    (the source asks Python's mimetypes module). */
module Multipart {
  import opened Wrappers
  import opened Sequences
  import opened Text

  /** A form field's value: a string, or an integer that the encoder turns into text with `str`. */
  datatype FieldValue = Str(s: string) | Int(i: int)

  datatype FormField = FormField(name: string, value: FieldValue)

  /** A file part: field name, file name, and the bytes read from the file object. */
  datatype FileField = FileField(name: string, filename: string, content: seq<byte>)

  const CRLF: string := "\r\n"
  const DefaultMime: string := "application/octet-stream"

  function ValueText(v: FieldValue): string {
    match v
    case Str(s) => s
    case Int(i) => IntText(i)
  }

  /** The Content-Type of a file part: the guess, unless it is missing or empty. */
  function MimeType(guessed: Option<string>): (m: string)
    ensures m != ""
  {
    if guessed.Some? && guessed.value != "" then guessed.value else DefaultMime
  }

  function ContentType(boundary: string): string {
    "multipart/form-data; boundary=" + boundary
  }

  function Delimiter(boundary: string): string {
    "--" + boundary + CRLF
  }

  function CloseDelimiter(boundary: string): string {
    "--" + boundary + "--" + CRLF
  }

  function FieldDisposition(name: string): string {
    "Content-Disposition: form-data; name=\"" + name + "\"" + CRLF
  }

  function FileDisposition(name: string, filename: string): string {
    "Content-Disposition: form-data; name=\"" + name + "\"; filename=\"" + filename + "\"" + CRLF
  }

  function ContentTypeHeader(mime: string): string {
    "Content-Type: " + mime + CRLF
  }

  /** A form-field part as text: delimiter, disposition, blank line, value, line end. */
  function FieldPartText(boundary: string, f: FormField): (t: string)
    ensures Delimiter(boundary) <= t
    ensures |t| >= 2 && t[|t| - 2..] == CRLF
  {
    Delimiter(boundary) + FieldDisposition(f.name) + CRLF + ValueText(f.value) + CRLF
  }

  /** The headers of a file part, up to and including the blank line. */
  function FilePartHead(boundary: string, p: FileField, guess: string -> Option<string>): (t: string)
    ensures Delimiter(boundary) <= t
    ensures |t| >= 4 && t[|t| - 4..] == CRLF + CRLF
  {
    Delimiter(boundary) + FileDisposition(p.name, p.filename) + ContentTypeHeader(MimeType(guess(p.filename))) + CRLF
  }

  /** The bytes of one form-field part. */
  function FieldPart(boundary: string): FormField -> seq<byte> {
    f => Utf8(FieldPartText(boundary, f))
  }

  /** The bytes of one file part: its headers, the file's bytes verbatim, a line end. */
  function FilePart(boundary: string, guess: string -> Option<string>): FileField -> seq<byte> {
    p => Utf8(FilePartHead(boundary, p, guess)) + p.content + Utf8(CRLF)
  }

  /** The parts of a list, one after the other in list order. */
  function Parts<T>(xs: seq<T>, part: T -> seq<byte>): seq<byte> {
    if xs == [] then [] else Parts(xs[..|xs| - 1], part) + part(xs[|xs| - 1])
  }

  /** The whole body: every field part, then every file part, then the close delimiter. */
  function Body(boundary: string, fields: seq<FormField>, files: seq<FileField>, guess: string -> Option<string>): seq<byte> {
    Parts(fields, FieldPart(boundary)) + Parts(files, FilePart(boundary, guess)) + Utf8(CloseDelimiter(boundary))
  }

  /** The bytes of a chunk sequence written one after the other. */
  function Flatten(chunks: seq<seq<byte>>): seq<byte> {
    if chunks == [] then [] else Flatten(chunks[..|chunks| - 1]) + chunks[|chunks| - 1]
  }

  /** The five chunks `iter` yields for a form field. */
  function FieldChunks(boundary: string, f: FormField): seq<seq<byte>> {
    [Utf8(Delimiter(boundary)), Utf8(FieldDisposition(f.name)), Utf8(CRLF), Utf8(ValueText(f.value)), Utf8(CRLF)]
  }

  /** The six chunks `iter` yields for a file; the fifth is the file's content. */
  function FileChunks(boundary: string, p: FileField, guess: string -> Option<string>): seq<seq<byte>> {
    [Utf8(Delimiter(boundary)), Utf8(FileDisposition(p.name, p.filename)),
     Utf8(ContentTypeHeader(MimeType(guess(p.filename)))), Utf8(CRLF), p.content, Utf8(CRLF)]
  }

  /** Every chunk `iter` yields for a list of fields, field after field. */
  function FieldChunkList(boundary: string, fields: seq<FormField>): seq<seq<byte>> {
    if fields == [] then []
    else FieldChunkList(boundary, fields[..|fields| - 1]) + FieldChunks(boundary, fields[|fields| - 1])
  }

  /** Every chunk `iter` yields for a list of files, file after file. */
  function FileChunkList(boundary: string, files: seq<FileField>, guess: string -> Option<string>): seq<seq<byte>> {
    if files == [] then []
    else FileChunkList(boundary, files[..|files| - 1], guess) + FileChunks(boundary, files[|files| - 1], guess)
  }

  /** The whole chunk stream of `iter`. */
  function Chunks(boundary: string, fields: seq<FormField>, files: seq<FileField>, guess: string -> Option<string>): seq<seq<byte>> {
    FieldChunkList(boundary, fields) + FileChunkList(boundary, files, guess) + [Utf8(CloseDelimiter(boundary))]
  }

  // ---------------------------------------------------------------------------
  // The encoder object
  // ---------------------------------------------------------------------------

  class MultipartFormdataEncoder {
    const boundary: string
    const contentType: string

    ghost predicate Valid() {
      contentType == ContentType(boundary)
    }

    constructor(boundary: string)
      ensures Valid() && this.boundary == boundary
      ensures contentType == "multipart/form-data; boundary=" + boundary
    {
      this.boundary := boundary;
      this.contentType := ContentType(boundary);
    }

    /** The chunks the `iter` generator yields, in order: five per field, six
        per file, the close delimiter last; written one after the other they
        make the body. */
    method Iter(fields: seq<FormField>, files: seq<FileField>, guess: string -> Option<string>)
      returns (chunks: seq<seq<byte>>)
      ensures chunks == Chunks(boundary, fields, files, guess)
    {
      chunks := [];
      var i := 0;
      while i < |fields|
        invariant 0 <= i <= |fields|
        invariant chunks == FieldChunkList(boundary, fields[..i])
      {
        assert fields[..i + 1][..i] == fields[..i];
        chunks := chunks + FieldChunks(boundary, fields[i]);
        i := i + 1;
      }
      assert fields[..|fields|] == fields;
      var j := 0;
      while j < |files|
        invariant 0 <= j <= |files|
        invariant chunks == FieldChunkList(boundary, fields) + FileChunkList(boundary, files[..j], guess)
      {
        assert files[..j + 1][..j] == files[..j];
        Associative(FieldChunkList(boundary, fields), FileChunkList(boundary, files[..j], guess), FileChunks(boundary, files[j], guess));
        chunks := chunks + FileChunks(boundary, files[j], guess);
        j := j + 1;
      }
      assert files[..|files|] == files;
      chunks := chunks + [Utf8(CloseDelimiter(boundary))];
    }

    /** `encode`: the content type, and the chunks of Iter written one after
        the other into a byte buffer. */
    method Encode(fields: seq<FormField>, files: seq<FileField>, guess: string -> Option<string>)
      returns (contentType: string, body: seq<byte>)
      requires Valid()
      ensures contentType == "multipart/form-data; boundary=" + boundary
      ensures body == Body(boundary, fields, files, guess)
    {
      var chunks := Iter(fields, files, guess);
      ChunksFlatten(boundary, fields, files, guess);
      body := [];
      var k := 0;
      while k < |chunks|
        invariant 0 <= k <= |chunks|
        invariant body == Flatten(chunks[..k])
      {
        body := body + chunks[k];
        assert chunks[..k + 1][..k] == chunks[..k];
        k := k + 1;
      }
      assert chunks[..|chunks|] == chunks;
      contentType := this.contentType;
    }
  }

  // ---------------------------------------------------------------------------
  // Lemmas
  // ---------------------------------------------------------------------------

  lemma {:induction false} FlattenAppend(a: seq<seq<byte>>, b: seq<seq<byte>>)
    ensures Flatten(a + b) == Flatten(a) + Flatten(b)
  {
    if b == [] {
      assert a + b == a;
    } else {
      var n := |b| - 1;
      FlattenAppend(a, b[..n]);
      assert (a + b)[..|a + b| - 1] == a + b[..n];
    }
  }

  lemma Utf8Five(s1: string, s2: string, s3: string, s4: string, s5: string)
    ensures Utf8(s1 + s2 + s3 + s4 + s5) == Utf8(s1) + Utf8(s2) + Utf8(s3) + Utf8(s4) + Utf8(s5)
  {
    Utf8Append(s1 + s2 + s3 + s4, s5);
    Utf8Append(s1 + s2 + s3, s4);
    Utf8Append(s1 + s2, s3);
    Utf8Append(s1, s2);
  }

  lemma Utf8Four(s1: string, s2: string, s3: string, s4: string)
    ensures Utf8(s1 + s2 + s3 + s4) == Utf8(s1) + Utf8(s2) + Utf8(s3) + Utf8(s4)
  {
    Utf8Append(s1 + s2 + s3, s4);
    Utf8Append(s1 + s2, s3);
    Utf8Append(s1, s2);
  }

  lemma FlattenFive(a1: seq<byte>, a2: seq<byte>, a3: seq<byte>, a4: seq<byte>, a5: seq<byte>)
    ensures Flatten([a1, a2, a3, a4, a5]) == a1 + a2 + a3 + a4 + a5
  {
    assert Flatten([a1]) == a1 by { assert [a1][..0] == []; }
    assert Flatten([a1, a2]) == a1 + a2 by { assert [a1, a2][..1] == [a1]; }
    assert Flatten([a1, a2, a3]) == a1 + a2 + a3 by { assert [a1, a2, a3][..2] == [a1, a2]; }
    assert Flatten([a1, a2, a3, a4]) == a1 + a2 + a3 + a4 by { assert [a1, a2, a3, a4][..3] == [a1, a2, a3]; }
    assert [a1, a2, a3, a4, a5][..4] == [a1, a2, a3, a4];
  }

  lemma FlattenSix(a1: seq<byte>, a2: seq<byte>, a3: seq<byte>, a4: seq<byte>, a5: seq<byte>, a6: seq<byte>)
    ensures Flatten([a1, a2, a3, a4, a5, a6]) == a1 + a2 + a3 + a4 + a5 + a6
  {
    FlattenFive(a1, a2, a3, a4, a5);
    assert [a1, a2, a3, a4, a5, a6][..5] == [a1, a2, a3, a4, a5];
  }

  /** The five chunks of a field, written one after the other, are that field's part. */
  lemma FieldChunksBytes(boundary: string, f: FormField)
    ensures Flatten(FieldChunks(boundary, f)) == FieldPart(boundary)(f)
  {
    var d, h, v := Delimiter(boundary), FieldDisposition(f.name), ValueText(f.value);
    FlattenFive(Utf8(d), Utf8(h), Utf8(CRLF), Utf8(v), Utf8(CRLF));
    Utf8Five(d, h, CRLF, v, CRLF);
  }

  /** The six chunks of a file, written one after the other, are that file's part. */
  lemma FileChunksBytes(boundary: string, p: FileField, guess: string -> Option<string>)
    ensures Flatten(FileChunks(boundary, p, guess)) == FilePart(boundary, guess)(p)
  {
    var d, h, t := Delimiter(boundary), FileDisposition(p.name, p.filename), ContentTypeHeader(MimeType(guess(p.filename)));
    FlattenSix(Utf8(d), Utf8(h), Utf8(t), Utf8(CRLF), p.content, Utf8(CRLF));
    Utf8Four(d, h, t, CRLF);
  }

  lemma {:induction false} FieldChunkListBytes(boundary: string, fields: seq<FormField>)
    ensures Flatten(FieldChunkList(boundary, fields)) == Parts(fields, FieldPart(boundary))
  {
    if fields != [] {
      var n := |fields| - 1;
      FieldChunkListBytes(boundary, fields[..n]);
      FieldChunksBytes(boundary, fields[n]);
      FlattenAppend(FieldChunkList(boundary, fields[..n]), FieldChunks(boundary, fields[n]));
    }
  }

  lemma {:induction false} FileChunkListBytes(boundary: string, files: seq<FileField>, guess: string -> Option<string>)
    ensures Flatten(FileChunkList(boundary, files, guess)) == Parts(files, FilePart(boundary, guess))
  {
    if files != [] {
      var n := |files| - 1;
      FileChunkListBytes(boundary, files[..n], guess);
      FileChunksBytes(boundary, files[n], guess);
      FlattenAppend(FileChunkList(boundary, files[..n], guess), FileChunks(boundary, files[n], guess));
    }
  }

  /** Written one after the other, the chunks of `iter` are exactly the body. */
  lemma ChunksFlatten(boundary: string, fields: seq<FormField>, files: seq<FileField>, guess: string -> Option<string>)
    ensures Flatten(Chunks(boundary, fields, files, guess)) == Body(boundary, fields, files, guess)
  {
    var a, b := FieldChunkList(boundary, fields), FileChunkList(boundary, files, guess);
    var c := [Utf8(CloseDelimiter(boundary))];
    FieldChunkListBytes(boundary, fields);
    FileChunkListBytes(boundary, files, guess);
    FlattenAppend(a + b, c);
    FlattenAppend(a, b);
    assert Flatten(c) == Utf8(CloseDelimiter(boundary)) by { assert c[..0] == []; }
  }

  /** Five chunks per field, six per file, one closing chunk. */
  lemma {:induction false} ChunkCount(boundary: string, fields: seq<FormField>, files: seq<FileField>, guess: string -> Option<string>)
    ensures |Chunks(boundary, fields, files, guess)| == 5 * |fields| + 6 * |files| + 1
  {
    FieldChunkCount(boundary, fields);
    FileChunkCount(boundary, files, guess);
  }

  lemma {:induction false} FieldChunkCount(boundary: string, fields: seq<FormField>)
    ensures |FieldChunkList(boundary, fields)| == 5 * |fields|
  {
    if fields != [] {
      FieldChunkCount(boundary, fields[..|fields| - 1]);
    }
  }

  lemma {:induction false} FileChunkCount(boundary: string, files: seq<FileField>, guess: string -> Option<string>)
    ensures |FileChunkList(boundary, files, guess)| == 6 * |files|
  {
    if files != [] {
      FileChunkCount(boundary, files[..|files| - 1], guess);
    }
  }

  /** Parts keep list order: the parts of two lists one after the other are the
      parts of their concatenation. */
  lemma {:induction false} PartsAppend<T>(a: seq<T>, b: seq<T>, part: T -> seq<byte>)
    ensures Parts(a + b, part) == Parts(a, part) + Parts(b, part)
  {
    if b == [] {
      assert a + b == a;
    } else {
      var n := |b| - 1;
      PartsAppend(a, b[..n], part);
      assert (a + b)[..|a + b| - 1] == a + b[..n];
    }
  }

  /** The parts of a non-empty list open with the first element's part. */
  lemma PartsFirst<T>(xs: seq<T>, part: T -> seq<byte>)
    requires xs != []
    ensures Parts(xs, part) == part(xs[0]) + Parts(xs[1..], part)
  {
    PartsAppend([xs[0]], xs[1..], part);
    assert [xs[0]] + xs[1..] == xs;
    assert [xs[0]][..0] == [];
  }

  /** The body always closes with exactly one close-delimiter line; with no
      parts it is that line alone. */
  lemma BodyCloses(boundary: string, fields: seq<FormField>, files: seq<FileField>, guess: string -> Option<string>)
    ensures var body := Body(boundary, fields, files, guess);
            var close := Utf8(CloseDelimiter(boundary));
            && |close| <= |body|
            && body[|body| - |close|..] == close
            && (fields == [] && files == [] ==> body == close)
  {
    var fp := Parts(fields, FieldPart(boundary));
    var lp := Parts(files, FilePart(boundary, guess));
    var close := Utf8(CloseDelimiter(boundary));
    SuffixKept(fp + lp, close);
    if fields == [] && files == [] {
      assert fp + lp == [];
    }
  }

  /** A body with at least one part opens with a delimiter line. */
  lemma BodyOpens(boundary: string, fields: seq<FormField>, files: seq<FileField>, guess: string -> Option<string>)
    requires fields != [] || files != []
    ensures var d := Utf8(Delimiter(boundary));
            |d| <= |Body(boundary, fields, files, guess)| && Body(boundary, fields, files, guess)[..|d|] == d
  {
    var d := Utf8(Delimiter(boundary));
    var fp := Parts(fields, FieldPart(boundary));
    var lp := Parts(files, FilePart(boundary, guess));
    var close := Utf8(CloseDelimiter(boundary));
    if fields != [] {
      PartsFirst(fields, FieldPart(boundary));
      FieldPartOpens(boundary, fields[0]);
      PrefixKept(d, FieldPart(boundary)(fields[0]), Parts(fields[1..], FieldPart(boundary)));
      PrefixKept(d, fp, lp);
    } else {
      PartsFirst(files, FilePart(boundary, guess));
      FilePartOpens(boundary, files[0], guess);
      PrefixKept(d, FilePart(boundary, guess)(files[0]), Parts(files[1..], FilePart(boundary, guess)));
      assert fp + lp == lp;
    }
    PrefixKept(d, fp + lp, close);
  }

  lemma PrefixKept(d: seq<byte>, a: seq<byte>, b: seq<byte>)
    requires |d| <= |a| && a[..|d|] == d
    ensures |d| <= |a + b| && (a + b)[..|d|] == d
  {
    assert (a + b)[..|d|] == a[..|d|];
  }

  lemma SuffixKept(a: seq<byte>, c: seq<byte>)
    ensures (a + c)[|a + c| - |c|..] == c
  {
  }

  lemma FieldPartOpens(boundary: string, f: FormField)
    ensures var d := Utf8(Delimiter(boundary));
            |d| <= |FieldPart(boundary)(f)| && FieldPart(boundary)(f)[..|d|] == d
  {
    var rest := FieldDisposition(f.name) + CRLF + ValueText(f.value) + CRLF;
    assert FieldPartText(boundary, f) == Delimiter(boundary) + rest;
    Utf8Append(Delimiter(boundary), rest);
  }

  lemma FilePartOpens(boundary: string, p: FileField, guess: string -> Option<string>)
    ensures var d := Utf8(Delimiter(boundary));
            |d| <= |FilePart(boundary, guess)(p)| && FilePart(boundary, guess)(p)[..|d|] == d
  {
    var rest := FileDisposition(p.name, p.filename) + ContentTypeHeader(MimeType(guess(p.filename))) + CRLF;
    assert FilePartHead(boundary, p, guess) == Delimiter(boundary) + rest;
    Utf8Append(Delimiter(boundary), rest);
  }

  /** A file part's Content-Type is the guessed type when there is a non-empty
      one, and application/octet-stream when the guess is None or empty. */
  lemma MimeTypeDefault(filename: string, guess: string -> Option<string>)
    ensures guess(filename) == None ==> MimeType(guess(filename)) == "application/octet-stream"
    ensures guess(filename) == Some("") ==> MimeType(guess(filename)) == "application/octet-stream"
    ensures guess(filename).Some? && guess(filename).value != "" ==> MimeType(guess(filename)) == guess(filename).value
  {
  }

  /** An integer field is written as Python's `str` writes it: 0 becomes "0". */
  lemma IntFieldText(i: int)
    ensures ValueText(Int(i)) == IntText(i)
    ensures ValueText(Int(0)) == "0"
  {
    assert DigitChar(0) == '0';
  }
}

=== FILE: sequences.dfy ===
/** A fact about sequence concatenation that the loop proofs call by name. */
module Sequences {

  /** Concatenation regroups freely; loops that append a block to a prefix cite it. */
  lemma Associative<T>(a: seq<T>, b: seq<T>, c: seq<T>)
    ensures a + b + c == a + (b + c)
  {
  }
}

=== FILE: stool_design.dfy ===
/** The seat planner of StoolDesign.py as the source writes it: generateGCode
    appends to one output inside nested loops over sketches, depths, lines and
    circles, keeping a "last point" cursor and a "first point" flag;
    processSketchesOld writes the same lines to a file; the Cut Seat command
    submits the result when exactly one tool answers. Each is proved against
    the functions of ToolPath. */
module StoolDesign {
  import opened Wrappers
  import opened Sequences
  import opened Text
  import opened GCode
  import opened ToolPath
  import opened ToolPathFacts
  import opened FabMo

  /** The inner loop over a sketch's lines at one depth, and the retract after
      it: the cursor starts at the sentinel, each line is cut directly when it
      starts at the cursor and after a retract, rapid and plunge otherwise. */
  method AppendLinePass(program: seq<Cmd>, lines: seq<Line>, depth: real, retract: real, same: (Point, Point) -> bool)
    returns (out: seq<Cmd>)
    ensures out == program + LinePass(lines, depth, retract, same)
  {
    out := program;
    var last := Sentinel;
    var k := 0;
    while k < |lines|
      invariant 0 <= k <= |lines|
      invariant last == CursorBefore(lines, k)
      invariant out == program + Chain(lines[..k], depth, retract, same)
    {
      var ln := lines[k];
      var step;
      if same(ln.start, last) {
        step := [FeedXY(ln.end.x, ln.end.y)];
      } else {
        step := [RapidZ(retract), RapidXY(ln.start.x, ln.start.y), FeedZ(depth), FeedXY(ln.end.x, ln.end.y)];
      }
      assert lines[..k + 1][..k] == lines[..k];
      assert Chain(lines[..k + 1], depth, retract, same) == Chain(lines[..k], depth, retract, same) + step;
      out := out + step;
      last := ln.end;
      k := k + 1;
    }
    assert lines[..|lines|] == lines;
    out := out + [RapidZ(retract)];
  }

  /** The innermost circle loop and the retract after it: the first vertex is
      reached by a rapid move and a plunge, every later vertex by a cut. */
  method AppendCirclePass(program: seq<Cmd>, pts: seq<Point>, depth: real, retract: real)
    returns (out: seq<Cmd>)
    ensures out == program + CirclePass(pts, depth, retract)
  {
    out := program;
    var first := true;
    var v := 0;
    while v < |pts|
      invariant 0 <= v <= |pts|
      invariant first <==> v == 0
      invariant out == program + StrokeCuts(pts[..v], depth)
    {
      var step;
      if first {
        step := [RapidXY(pts[v].x, pts[v].y), FeedZ(depth)];
        first := false;
      } else {
        step := [FeedXY(pts[v].x, pts[v].y)];
      }
      assert pts[..v + 1][..v] == pts[..v];
      assert StrokeCuts(pts[..v + 1], depth) == StrokeCuts(pts[..v], depth) + step;
      out := out + step;
      v := v + 1;
    }
    assert pts[..|pts|] == pts;
    out := out + [RapidZ(retract)];
  }

  /** The loop over the depths for a sketch's lines: one line pass per depth, in list order. */
  method AppendLinePasses(program: seq<Cmd>, lines: seq<Line>, depths: seq<real>, retract: real, same: (Point, Point) -> bool)
    returns (out: seq<Cmd>)
    ensures out == program + LinePasses(lines, depths, retract, same)
  {
    out := program;
    var d := 0;
    while d < |depths|
      invariant 0 <= d <= |depths|
      invariant out == program + LinePasses(lines, depths[..d], retract, same)
    {
      assert depths[..d + 1][..d] == depths[..d];
      Associative(program, LinePasses(lines, depths[..d], retract, same), LinePass(lines, depths[d], retract, same));
      out := AppendLinePass(out, lines, depths[d], retract, same);
      d := d + 1;
    }
    assert depths[..|depths|] == depths;
  }

  /** The loop over the depths for one circle: one pass along its strokes per depth. */
  method AppendCirclePasses(program: seq<Cmd>, pts: seq<Point>, depths: seq<real>, retract: real)
    returns (out: seq<Cmd>)
    ensures out == program + CirclePasses(pts, depths, retract)
  {
    out := program;
    var e := 0;
    while e < |depths|
      invariant 0 <= e <= |depths|
      invariant out == program + CirclePasses(pts, depths[..e], retract)
    {
      assert depths[..e + 1][..e] == depths[..e];
      Associative(program, CirclePasses(pts, depths[..e], retract), CirclePass(pts, depths[e], retract));
      out := AppendCirclePass(out, pts, depths[e], retract);
      e := e + 1;
    }
    assert depths[..|depths|] == depths;
  }

  /** One seat sketch: the line passes, then each circle cut at every depth. */
  method AppendSeatSketch(program: seq<Cmd>, sk: Sketch, depths: seq<real>, retract: real, same: (Point, Point) -> bool)
    returns (out: seq<Cmd>)
    ensures out == program + (LinePasses(sk.lines, depths, retract, same) + Circles(sk.circles, depths, retract))
  {
    out := AppendLinePasses(program, sk.lines, depths, retract, same);
    var linesDone := out;
    var c := 0;
    while c < |sk.circles|
      invariant 0 <= c <= |sk.circles|
      invariant out == linesDone + Circles(sk.circles[..c], depths, retract)
    {
      assert sk.circles[..c + 1][..c] == sk.circles[..c];
      Associative(linesDone, Circles(sk.circles[..c], depths, retract), CirclePasses(sk.circles[c], depths, retract));
      out := AppendCirclePasses(out, sk.circles[c], depths, retract);
      c := c + 1;
    }
    assert sk.circles[..|sk.circles|] == sk.circles;
    Associative(program, LinePasses(sk.lines, depths, retract, same), Circles(sk.circles, depths, retract));
  }

  /** generateGCode: the header, every seat sketch, the footer. `same` is the
      host's Point3D.isEqualTo and `inch` is toInches. Returns the commands and
      the text they render to, which is never empty. */
  method GenerateGCode(sketches: seq<Sketch>, depths: seq<real>, retract: real,
                       same: (Point, Point) -> bool, inch: real -> string)
    returns (program: seq<Cmd>, gCode: string)
    ensures program == Program(sketches, depths, retract, same)
    ensures gCode == RenderAll(program, inch)
    ensures gCode != ""
  {
    program := [Inches, SetFeed(FeedRate), RapidZ(retract), SpindleOn, Dwell(SpinUpSeconds)];
    var s := 0;
    while s < |sketches|
      invariant 0 <= s <= |sketches|
      invariant program == Header(retract) + AllSketches(sketches[..s], depths, retract, same)
    {
      var sk := sketches[s];
      assert sketches[..s + 1][..s] == sketches[..s];
      Associative(Header(retract), AllSketches(sketches[..s], depths, retract, same), SketchCmds(sk, depths, retract, same));
      if sk.visible && sk.seatAttribute {
        program := AppendSeatSketch(program, sk, depths, retract, same);
      }
      s := s + 1;
    }
    assert sketches[..|sketches|] == sketches;
    program := program + [SpindleOff, Home, EndProgram];
    gCode := RenderAll(program, inch);
    ProgramTextNonEmpty(sketches, depths, retract, same, inch);
  }

  /** A text file opened for writing. */
  class TextFile {
    var contents: string
    var isOpen: bool

    constructor()
      ensures contents == "" && !isOpen
    {
      contents := "";
      isOpen := false;
    }

    /** open(name, 'w'): the file is truncated. */
    method Open()
      modifies this
      ensures isOpen && contents == ""
    {
      isOpen := true;
      contents := "";
    }

    method Write(text: string)
      requires isOpen
      modifies this
      ensures isOpen && contents == old(contents) + text
    {
      contents := contents + text;
    }

    method Close()
      modifies this
      ensures !isOpen && contents == old(contents)
    {
      isOpen := false;
    }
  }

  /** processSketchesOld: the same program as generateGCode, written to a file
      line by line; the file is closed and the result is True. */
  method ProcessSketchesOld(file: TextFile, sketches: seq<Sketch>, depths: seq<real>, retract: real,
                            same: (Point, Point) -> bool, inch: real -> string)
    returns (ok: bool)
    modifies file
    ensures ok && !file.isOpen
    ensures file.contents == RenderAll(Program(sketches, depths, retract, same), inch)
  {
    var program, _ := GenerateGCode(sketches, depths, retract, same, inch);
    file.Open();
    var k := 0;
    while k < |program|
      invariant 0 <= k <= |program|
      invariant file.isOpen
      invariant file.contents == RenderAll(program[..k], inch)
    {
      RenderAllPrefix(program, k, inch);
      file.Write(Render(program[k], inch) + "\n");
      k := k + 1;
    }
    assert program[..|program|] == program;
    file.Close();
    ok := true;
  }

  // ---------------------------------------------------------------------------
  // The Cut Seat command
  // ---------------------------------------------------------------------------

  /** What the Cut Seat command does with a generated program. */
  datatype CutSeatOutcome =
    | Declined                              // the program is empty: return False
    | Aborted(message: string)              // a message box, and nothing is sent
    | Submitted(tool: FabMoTool, codes: string, filename: string, name: string, description: string)

  const FindFailedMessage: string := "Unable to use the Fabmo tools.  Aborting."
  const NoToolMessage: string := "No tools were found on the network."
  const ManyToolsMessage: string := "There is more than one tool on the network."

  /** The decision in the Cut Seat handler: `discovered` is what find_tools
      returned (Failure when it raised); `userName` and `email` are the
      dialog's inputs. A submitted job is named after the user and described
      by the user's name and email. */
  function CutSeat(gCode: string, discovered: Result<seq<FabMoTool>, string>, userName: string, email: string): (o: CutSeatOutcome)
    ensures o.Submitted? <==> gCode != "" && discovered.Success? && |discovered.value| == 1
    ensures o.Submitted? ==> o.tool == discovered.value[0] && o.codes == gCode && o.filename == "stool.nc"
    ensures o.Submitted? ==> o.name == "Stool for " + userName
                             && o.description == "Submitted by: " + userName + ", Email: " + email
    ensures gCode != "" && discovered.Failure? ==> o == Aborted(FindFailedMessage)
    ensures o == Declined <==> gCode == ""
    ensures o.Aborted? && discovered.Success? ==>
              o.message == (if |discovered.value| == 0 then NoToolMessage else ManyToolsMessage)
  {
    if gCode == "" then Declined
    else if discovered.Failure? then Aborted(FindFailedMessage)
    else if |discovered.value| == 0 then Aborted(NoToolMessage)
    else if |discovered.value| > 1 then Aborted(ManyToolsMessage)
    else
      var tool := discovered.value[0];
      Submitted(tool, gCode, "stool.nc", "Stool for " + userName, "Submitted by: " + userName + ", Email: " + email)
  }

  /** A program from generateGCode is never empty, so the command is decided by
      the tool count alone: one tool submits, none or several abort with
      different messages. */
  lemma CutSeatOnGenerated(sketches: seq<Sketch>, depths: seq<real>, retract: real, same: (Point, Point) -> bool,
                           inch: real -> string, tools: seq<FabMoTool>, userName: string, email: string)
    ensures var o := CutSeat(RenderAll(Program(sketches, depths, retract, same), inch), Success(tools), userName, email);
            && (|tools| == 0 ==> o == Aborted(NoToolMessage))
            && (|tools| > 1 ==> o == Aborted(ManyToolsMessage))
            && (|tools| == 1 ==> o.Submitted? && o.tool == tools[0])
  {
    ProgramTextNonEmpty(sketches, depths, retract, same, inch);
  }

  /** The job submitted by Cut Seat passes submit_job's defaulting unchanged. */
  lemma CutSeatArgumentsKept(gCode: string, discovered: Result<seq<FabMoTool>, string>, userName: string, email: string)
    requires CutSeat(gCode, discovered, userName, email).Submitted?
    ensures var o := CutSeat(gCode, discovered, userName, email);
            ApplyDefaults(Some(o.filename), Some(o.name), Some(o.description)) == JobArgs(o.filename, o.name, o.description)
  {
    var o := CutSeat(gCode, discovered, userName, email);
    assert o.name[..10] == "Stool for ";
    assert o.description[..14] == "Submitted by: ";
  }
}

=== FILE: text.dfy ===
/** Text and byte helpers shared by the motion-program renderer and the
    multipart encoder: Python's `str(int)` and the `utf-8` codec. */
module Text {
  import opened Wrappers

  newtype byte = x: int | 0 <= x < 256

  predicate IsDigit(c: char) {
    '0' <= c <= '9'
  }

  predicate AllDigits(s: string) {
    forall i :: 0 <= i < |s| ==> IsDigit(s[i])
  }

  function DigitChar(d: nat): (c: char)
    requires d < 10
    ensures IsDigit(c) && c as int - '0' as int == d
  {
    "0123456789"[d]
  }

  /** Decimal text of a natural number, without leading zeros. */
  function NatText(n: nat): (s: string)
    ensures |s| > 0 && AllDigits(s)
    ensures s[0] == '0' ==> s == "0"
    decreases n
  {
    if n < 10 then [DigitChar(n)] else NatText(n / 10) + [DigitChar(n % 10)]
  }

  /** The value of a string of decimal digits (the reading direction of NatText). */
  function DigitsValue(s: string): nat
    requires AllDigits(s)
  {
    if s == [] then 0 else DigitsValue(s[..|s| - 1]) * 10 + (s[|s| - 1] as int - '0' as int)
  }

  lemma {:induction false} NatTextRoundTrip(n: nat)
    ensures DigitsValue(NatText(n)) == n
  {
    if n >= 10 {
      NatTextRoundTrip(n / 10);
      var s := NatText(n);
      assert s[..|s| - 1] == NatText(n / 10);
    }
  }

  /** Python's `str` applied to an `int`: a minus sign for negative values, then the digits. */
  function IntText(i: int): (s: string)
    ensures |s| > 0
    ensures s[0] == '-' <==> i < 0
    ensures i >= 0 ==> AllDigits(s)
    ensures i < 0 ==> AllDigits(s[1..])
  {
    if i < 0 then "-" + NatText(-i) else NatText(i)
  }

  /** Reading an integer back from IntText's format. */
  function IntValue(s: string): int
    requires |s| > 0
    requires if s[0] == '-' then AllDigits(s[1..]) else AllDigits(s)
  {
    if s[0] == '-' then -(DigitsValue(s[1..]) as int) else DigitsValue(s)
  }

  lemma IntTextRoundTrip(i: int)
    ensures IntValue(IntText(i)) == i
  {
    if i < 0 {
      NatTextRoundTrip(-i);
      assert IntText(i)[1..] == NatText(-i);
    } else {
      NatTextRoundTrip(i);
    }
  }

  // ---------------------------------------------------------------------------
  // UTF-8 (the codec Python's `str.encode('utf-8')` and `codecs.getencoder('utf-8')` apply)
  // ---------------------------------------------------------------------------

  /** The UTF-8 byte sequence of one Unicode scalar value. */
  function CharUtf8(c: char): (b: seq<byte>)
    ensures 1 <= |b| <= 4
    ensures |b| == 1 <==> c as int < 0x80
    ensures |b| == 1 ==> b[0] as int == c as int
  {
    var n := c as int;
    if n < 0x80 then
      [n as byte]
    else if n < 0x800 then
      [(0xC0 + n / 0x40) as byte, (0x80 + n % 0x40) as byte]
    else if n < 0x1_0000 then
      [(0xE0 + n / 0x1000) as byte, (0x80 + n / 0x40 % 0x40) as byte, (0x80 + n % 0x40) as byte]
    else
      [(0xF0 + n / 0x4_0000) as byte, (0x80 + n / 0x1000 % 0x40) as byte,
       (0x80 + n / 0x40 % 0x40) as byte, (0x80 + n % 0x40) as byte]
  }

  function Utf8(s: string): seq<byte> {
    if s == [] then [] else CharUtf8(s[0]) + Utf8(s[1..])
  }

  lemma {:induction false} Utf8Append(a: string, b: string)
    ensures Utf8(a + b) == Utf8(a) + Utf8(b)
  {
    if a != [] {
      assert (a + b)[0] == a[0];
      assert (a + b)[1..] == a[1..] + b;
      Utf8Append(a[1..], b);
    } else {
      assert a + b == b;
    }
  }

  /** Number of bytes announced by a UTF-8 lead byte; 0 for a byte that cannot lead. */
  function LeadLength(x: byte): nat {
    if x < 0x80 then 1
    else if 0xC0 <= x < 0xE0 then 2
    else if 0xE0 <= x < 0xF0 then 3
    else if 0xF0 <= x < 0xF8 then 4
    else 0
  }

  predicate IsContinuation(x: byte) {
    0x80 <= x < 0xC0
  }

  predicate IsScalar(v: int) {
    (0 <= v < 0xD800) || (0xE000 <= v <= 0x10_FFFF)
  }

  /** Decodes one UTF-8 sequence whose length its lead byte announces, rejecting
      malformed continuations, overlong forms, surrogates and values past U+10FFFF. */
  function DecodeScalar(b: seq<byte>): Option<char>
    requires 1 <= |b| <= 4 && LeadLength(b[0]) == |b|
  {
    if |b| == 1 then
      Some(b[0] as int as char)
    else if exists i :: 1 <= i < |b| && !IsContinuation(b[i]) then
      None
    else
      var v :=
        if |b| == 2 then (b[0] as int - 0xC0) * 0x40 + (b[1] as int - 0x80)
        else if |b| == 3 then (b[0] as int - 0xE0) * 0x1000 + (b[1] as int - 0x80) * 0x40 + (b[2] as int - 0x80)
        else (b[0] as int - 0xF0) * 0x4_0000 + (b[1] as int - 0x80) * 0x1000 + (b[2] as int - 0x80) * 0x40 + (b[3] as int - 0x80);
      var least := if |b| == 2 then 0x80 else if |b| == 3 then 0x800 else 0x1_0000;
      if least <= v && IsScalar(v) then Some(v as char) else None
  }

  /** Strict UTF-8 decoding; None for any malformed input. */
  function DecodeUtf8(b: seq<byte>): Option<string>
    decreases |b|
  {
    if b == [] then Some([])
    else
      var n := LeadLength(b[0]);
      if n == 0 || |b| < n then None
      else match DecodeScalar(b[..n])
        case None => None
        case Some(c) =>
          match DecodeUtf8(b[n..])
          case None => None
          case Some(rest) => Some([c] + rest)
  }

  lemma CharUtf8Decodes(c: char)
    ensures LeadLength(CharUtf8(c)[0]) == |CharUtf8(c)|
    ensures DecodeScalar(CharUtf8(c)) == Some(c)
  {
    var n := c as int;
    if n < 0x80 {
    } else if n < 0x800 {
      TwoByteDecodes(c);
    } else if n < 0x1_0000 {
      ThreeByteDecodes(c);
    } else {
      FourByteDecodes(c);
    }
  }

  lemma TwoByteDecodes(c: char)
    requires 0x80 <= c as int < 0x800
    ensures LeadLength(CharUtf8(c)[0]) == 2
    ensures DecodeScalar(CharUtf8(c)) == Some(c)
  {
    var n := c as int;
    var b := CharUtf8(c);
    var hi, lo := n / 0x40, n % 0x40;
    assert n == hi * 0x40 + lo;
    assert b[0] as int == 0xC0 + hi && b[1] as int == 0x80 + lo;
    assert IsContinuation(b[1]);
  }

  lemma ThreeByteDecodes(c: char)
    requires 0x800 <= c as int < 0x1_0000
    ensures LeadLength(CharUtf8(c)[0]) == 3
    ensures DecodeScalar(CharUtf8(c)) == Some(c)
  {
    var n := c as int;
    var b := CharUtf8(c);
    var q := n / 0x40;
    var b0, b1, b2 := n / 0x1000, q % 0x40, n % 0x40;
    assert n == q * 0x40 + b2;
    assert q == b0 * 0x40 + b1;
    assert b[0] as int == 0xE0 + b0 && b[1] as int == 0x80 + b1 && b[2] as int == 0x80 + b2;
    assert IsContinuation(b[1]) && IsContinuation(b[2]);
  }

  lemma FourByteDecodes(c: char)
    requires 0x1_0000 <= c as int
    ensures LeadLength(CharUtf8(c)[0]) == 4
    ensures DecodeScalar(CharUtf8(c)) == Some(c)
  {
    var n := c as int;
    var b := CharUtf8(c);
    var q := n / 0x40;
    var r := n / 0x1000;
    var b0, b1, b2, b3 := n / 0x4_0000, r % 0x40, q % 0x40, n % 0x40;
    assert n == q * 0x40 + b3;
    assert q == r * 0x40 + b2;
    assert r == b0 * 0x40 + b1;
    assert b[0] as int == 0xF0 + b0 && b[1] as int == 0x80 + b1;
    assert b[2] as int == 0x80 + b2 && b[3] as int == 0x80 + b3;
    assert IsContinuation(b[1]) && IsContinuation(b[2]) && IsContinuation(b[3]);
  }

  /** Decoding inverts the encoder, so distinct strings never share an encoding. */
  lemma {:induction false} Utf8RoundTrip(s: string)
    ensures DecodeUtf8(Utf8(s)) == Some(s)
  {
    if s != [] {
      var head := CharUtf8(s[0]);
      var b := Utf8(s);
      assert b == head + Utf8(s[1..]);
      CharUtf8Decodes(s[0]);
      assert b[..|head|] == head;
      assert b[|head|..] == Utf8(s[1..]);
      Utf8RoundTrip(s[1..]);
      assert [s[0]] + s[1..] == s;
    }
  }
}

=== FILE: toolpath.dfy ===
/** What the seat planner of StoolDesign.py (generateGCode, processSketchesOld)
    emits, stated as functions of its inputs, with the properties of that
    command sequence. Every function here recurses on the LAST element of its
    sequence, in the order in which the source appends to its output. */
module ToolPath {
  import opened GCode

  /** A sketch point (the host's Point3D), in centimetres. */
  datatype Point = Point(x: real, y: real, z: real)

  /** The "last point" value every line pass starts from. */
  const Sentinel := Point(-1000.0, -1000.0, -1000.0)

  datatype Line = Line(start: Point, end: Point)

  /** What the planner reads from one sketch of the design: whether it is shown,
      whether it carries the seat attribute, its lines in the sketch's order,
      and each circle as the stroke vertices the host's evaluator returned. */
  datatype Sketch = Sketch(visible: bool, seatAttribute: bool, lines: seq<Line>, circles: seq<seq<Point>>)

  /** Only visible sketches that carry the seat attribute are cut. */
  predicate IsSeat(sk: Sketch) {
    sk.visible && sk.seatAttribute
  }

  /** The add-in's configuration (centimetres). */
  const RetractHeight: real := 0.5
  const CuttingDepths: seq<real> := [-0.09, -0.1]

  /** Inches, the feed rate, a lift to the retract height, the spindle on and
      the spin-up dwell: the lift is its only motion. */
  function Header(retract: real): (h: seq<Cmd>)
    ensures |h| == 5 && h[0] == Inches
    ensures forall i :: 0 <= i < |h| ==> (IsMotion(h[i]) <==> h[i] == RapidZ(retract))
  {
    [Inches, SetFeed(FeedRate), RapidZ(retract), SpindleOn, Dwell(SpinUpSeconds)]
  }

  /** The spindle stops first, the tool then moves home, and the program ends
      last; the move home is its only motion. */
  function Footer(): (f: seq<Cmd>)
    ensures |f| == 3 && f[0] == SpindleOff && f[2] == EndProgram
    ensures forall i :: 0 <= i < |f| ==> (IsMotion(f[i]) <==> f[i] == Home)
  {
    [SpindleOff, Home, EndProgram]
  }

  // ---------------------------------------------------------------------------
  // Lines: one pass per depth, with the "last point" cursor
  // ---------------------------------------------------------------------------

  /** The cursor when line k of a pass is reached: the sentinel for the first
      line, the previous line's end point afterwards. */
  function CursorBefore(lines: seq<Line>, k: nat): Point
    requires k <= |lines|
  {
    if k == 0 then Sentinel else lines[k - 1].end
  }

  /** The commands for one line, given the cursor; `same` is the host's
      `Point3D.isEqualTo`, applied as start.isEqualTo(cursor). */
  function LineCmds(cursor: Point, ln: Line, depth: real, retract: real, same: (Point, Point) -> bool): (r: seq<Cmd>)
    ensures |r| == 1 <==> same(ln.start, cursor)
    ensures |r| > 0 && r[|r| - 1] == FeedXY(ln.end.x, ln.end.y)
    ensures FeedZ(depth) in r <==> !same(ln.start, cursor)
  {
    if same(ln.start, cursor) then
      [FeedXY(ln.end.x, ln.end.y)]
    else
      [RapidZ(retract), RapidXY(ln.start.x, ln.start.y), FeedZ(depth), FeedXY(ln.end.x, ln.end.y)]
  }

  /** The commands for all lines of one pass, before its closing retract. */
  function Chain(lines: seq<Line>, depth: real, retract: real, same: (Point, Point) -> bool): seq<Cmd> {
    if lines == [] then []
    else
      var n := |lines| - 1;
      Chain(lines[..n], depth, retract, same) + LineCmds(CursorBefore(lines, n), lines[n], depth, retract, same)
  }

  /** One pass over a sketch's lines at one depth, closed by one retract. */
  function LinePass(lines: seq<Line>, depth: real, retract: real, same: (Point, Point) -> bool): seq<Cmd> {
    Chain(lines, depth, retract, same) + [RapidZ(retract)]
  }

  /** The line passes at every depth, in the order of the depth list. */
  function LinePasses(lines: seq<Line>, depths: seq<real>, retract: real, same: (Point, Point) -> bool): seq<Cmd> {
    if depths == [] then []
    else
      var n := |depths| - 1;
      LinePasses(lines, depths[..n], retract, same) + LinePass(lines, depths[n], retract, same)
  }

  // ---------------------------------------------------------------------------
  // Circles: every circle cut at every depth along its stroke vertices
  // ---------------------------------------------------------------------------

  /** The cut along a stroke list: rapid to the first vertex and plunge, then a
      cut to each further vertex. */
  function StrokeCuts(pts: seq<Point>, depth: real): (r: seq<Cmd>)
    ensures |r| == if pts == [] then 0 else |pts| + 1
  {
    if pts == [] then []
    else if |pts| == 1 then [RapidXY(pts[0].x, pts[0].y), FeedZ(depth)]
    else
      var n := |pts| - 1;
      StrokeCuts(pts[..n], depth) + [FeedXY(pts[n].x, pts[n].y)]
  }

  function CirclePass(pts: seq<Point>, depth: real, retract: real): seq<Cmd> {
    StrokeCuts(pts, depth) + [RapidZ(retract)]
  }

  function CirclePasses(pts: seq<Point>, depths: seq<real>, retract: real): seq<Cmd> {
    if depths == [] then []
    else
      var n := |depths| - 1;
      CirclePasses(pts, depths[..n], retract) + CirclePass(pts, depths[n], retract)
  }

  function Circles(circles: seq<seq<Point>>, depths: seq<real>, retract: real): seq<Cmd> {
    if circles == [] then []
    else
      var n := |circles| - 1;
      Circles(circles[..n], depths, retract) + CirclePasses(circles[n], depths, retract)
  }

  // ---------------------------------------------------------------------------
  // Sketches and the whole program
  // ---------------------------------------------------------------------------

  function SketchCmds(sk: Sketch, depths: seq<real>, retract: real, same: (Point, Point) -> bool): seq<Cmd> {
    if IsSeat(sk) then LinePasses(sk.lines, depths, retract, same) + Circles(sk.circles, depths, retract)
    else []
  }

  function AllSketches(sketches: seq<Sketch>, depths: seq<real>, retract: real, same: (Point, Point) -> bool): seq<Cmd> {
    if sketches == [] then []
    else
      var n := |sketches| - 1;
      AllSketches(sketches[..n], depths, retract, same) + SketchCmds(sketches[n], depths, retract, same)
  }

  /** The motion program generateGCode builds and processSketchesOld writes. */
  function Program(sketches: seq<Sketch>, depths: seq<real>, retract: real, same: (Point, Point) -> bool): seq<Cmd> {
    Header(retract) + AllSketches(sketches, depths, retract, same) + Footer()
  }
}

=== FILE: toolpath_facts.dfy ===
/** Properties of the seat planner's motion program (module ToolPath). */
module ToolPathFacts {
  import opened Text
  import opened GCode
  import opened ToolPath

  // ---------------------------------------------------------------------------
  // Vocabulary
  // ---------------------------------------------------------------------------

  predicate Motions(s: seq<Cmd>) {
    forall i :: 0 <= i < |s| ==> IsMotion(s[i])
  }

  /** At position i: a rapid horizontal move comes right after a retract to the
      retract height, and a plunge comes right after a rapid horizontal move. */
  predicate GuardedAt(s: seq<Cmd>, i: nat, retract: real)
    requires i < |s|
  {
    && (s[i].RapidXY? ==> i > 0 && s[i - 1] == RapidZ(retract))
    && (s[i].FeedZ? ==> i > 0 && s[i - 1].RapidXY?)
  }

  predicate Guarded(s: seq<Cmd>, retract: real) {
    forall i :: 0 <= i < |s| ==> GuardedAt(s, i, retract)
  }

  /** A block of commands is guarded when it runs right after a retract. */
  predicate SafeBlock(s: seq<Cmd>, retract: real) {
    Guarded([RapidZ(retract)] + s, retract)
  }

  /** A block that needs nothing from what ran before it. */
  predicate StartsSafe(s: seq<Cmd>) {
    s == [] || (!s[0].RapidXY? && !s[0].FeedZ?)
  }

  predicate EndsRetracted(s: seq<Cmd>, retract: real) {
    s != [] && s[|s| - 1] == RapidZ(retract)
  }

  /** The depths of the plunges, in program order. */
  function Plunges(s: seq<Cmd>): seq<real> {
    if s == [] then [] else (if s[0].FeedZ? then [s[0].z] else []) + Plunges(s[1..])
  }

  function Repeat(d: real, n: nat): (r: seq<real>)
    ensures |r| == n && forall i :: 0 <= i < n ==> r[i] == d
  {
    if n == 0 then [] else Repeat(d, n - 1) + [d]
  }

  /** How many lines of a pass start away from the cursor, i.e. take the plunge branch. */
  function Breaks(lines: seq<Line>, same: (Point, Point) -> bool): nat {
    if lines == [] then 0
    else
      var n := |lines| - 1;
      Breaks(lines[..n], same) + (if same(lines[n].start, CursorBefore(lines, n)) then 0 else 1)
  }

  /** Every depth in list order, each repeated n times. */
  function EachDepth(depths: seq<real>, n: nat): seq<real> {
    if depths == [] then [] else EachDepth(depths[..|depths| - 1], n) + Repeat(depths[|depths| - 1], n)
  }

  /** For each circle in order: the whole depth list, or nothing for an empty stroke list. */
  function CircleDepths(circles: seq<seq<Point>>, depths: seq<real>): seq<real> {
    if circles == [] then []
    else CircleDepths(circles[..|circles| - 1], depths) + (if circles[|circles| - 1] == [] then [] else depths)
  }

  /** Point 3D equality taken exactly. */
  function Exact(p: Point, q: Point): bool {
    p == q
  }

  /** A line pass cuts through each line's end point, in order. */
  function Cuts(lines: seq<Line>): (r: seq<Cmd>)
    ensures |r| == |lines|
    ensures forall i :: 0 <= i < |lines| ==> r[i] == FeedXY(lines[i].end.x, lines[i].end.y)
  {
    if lines == [] then [] else Cuts(lines[..|lines| - 1]) + [FeedXY(lines[|lines| - 1].end.x, lines[|lines| - 1].end.y)]
  }

  /** Each line starts where the previous one ended. */
  predicate Connected(lines: seq<Line>, same: (Point, Point) -> bool) {
    forall k :: 0 < k < |lines| ==> same(lines[k].start, lines[k - 1].end)
  }

  // ---------------------------------------------------------------------------
  // Composition lemmas
  // ---------------------------------------------------------------------------

  lemma MotionsJoin(a: seq<Cmd>, b: seq<Cmd>)
    requires Motions(a) && Motions(b)
    ensures Motions(a + b)
  {
    forall i | 0 <= i < |a + b| ensures IsMotion((a + b)[i]) {
      if i >= |a| { assert (a + b)[i] == b[i - |a|]; }
    }
  }

  /** A guarded block stays guarded when it is appended after a guarded sequence,
      provided that it starts safely or the sequence ends with a retract. */
  lemma Join(a: seq<Cmd>, b: seq<Cmd>, retract: real)
    requires Guarded(a, retract) && SafeBlock(b, retract)
    requires StartsSafe(b) || EndsRetracted(a, retract)
    ensures Guarded(a + b, retract)
  {
    var ab := a + b;
    var rb := [RapidZ(retract)] + b;
    forall i | 0 <= i < |ab| ensures GuardedAt(ab, i, retract) {
      if i < |a| {
        assert GuardedAt(a, i, retract);
        assert ab[i] == a[i];
        if i > 0 { assert ab[i - 1] == a[i - 1]; }
      } else {
        var j := i - |a|;
        assert GuardedAt(rb, j + 1, retract);
        assert ab[i] == b[j] == rb[j + 1];
        if j > 0 {
          assert ab[i - 1] == b[j - 1] == rb[j];
        } else if !StartsSafe(b) {
          assert ab[i - 1] == a[|a| - 1];
        }
      }
    }
  }

  lemma JoinBlocks(a: seq<Cmd>, b: seq<Cmd>, retract: real)
    requires SafeBlock(a, retract) && SafeBlock(b, retract)
    requires a == [] || StartsSafe(b) || EndsRetracted(a, retract)
    ensures SafeBlock(a + b, retract)
  {
    var ra := [RapidZ(retract)] + a;
    assert EndsRetracted(ra, retract) || StartsSafe(b);
    Join(ra, b, retract);
    assert ra + b == [RapidZ(retract)] + (a + b);
  }

  lemma StartsSafeJoin(a: seq<Cmd>, b: seq<Cmd>)
    requires StartsSafe(a) && StartsSafe(b)
    ensures StartsSafe(a + b)
  {
    if a == [] { assert a + b == b; }
  }

  lemma PlungesOne(c: Cmd)
    ensures Plunges([c]) == if c.FeedZ? then [c.z] else []
  {
    assert [c][1..] == [];
  }

  lemma {:induction false} PlungesAppend(a: seq<Cmd>, b: seq<Cmd>)
    ensures Plunges(a + b) == Plunges(a) + Plunges(b)
  {
    if a == [] {
      assert a + b == b;
    } else {
      assert (a + b)[0] == a[0];
      assert (a + b)[1..] == a[1..] + b;
      PlungesAppend(a[1..], b);
    }
  }

  // ---------------------------------------------------------------------------
  // Lines
  // ---------------------------------------------------------------------------

  lemma {:induction false} ChainFacts(lines: seq<Line>, depth: real, retract: real, same: (Point, Point) -> bool)
    ensures Motions(Chain(lines, depth, retract, same))
    ensures SafeBlock(Chain(lines, depth, retract, same), retract)
    ensures StartsSafe(Chain(lines, depth, retract, same))
  {
    if lines != [] {
      var n := |lines| - 1;
      var init := Chain(lines[..n], depth, retract, same);
      var step := LineCmds(CursorBefore(lines, n), lines[n], depth, retract, same);
      ChainFacts(lines[..n], depth, retract, same);
      assert SafeBlock(step, retract);
      MotionsJoin(init, step);
      JoinBlocks(init, step, retract);
      StartsSafeJoin(init, step);
    }
  }

  lemma LinePassFacts(lines: seq<Line>, depth: real, retract: real, same: (Point, Point) -> bool)
    ensures Motions(LinePass(lines, depth, retract, same))
    ensures SafeBlock(LinePass(lines, depth, retract, same), retract)
    ensures StartsSafe(LinePass(lines, depth, retract, same))
    ensures EndsRetracted(LinePass(lines, depth, retract, same), retract)
  {
    var c := Chain(lines, depth, retract, same);
    ChainFacts(lines, depth, retract, same);
    MotionsJoin(c, [RapidZ(retract)]);
    JoinBlocks(c, [RapidZ(retract)], retract);
    StartsSafeJoin(c, [RapidZ(retract)]);
  }

  lemma {:induction false} LinePassesFacts(lines: seq<Line>, depths: seq<real>, retract: real, same: (Point, Point) -> bool)
    ensures Motions(LinePasses(lines, depths, retract, same))
    ensures SafeBlock(LinePasses(lines, depths, retract, same), retract)
    ensures StartsSafe(LinePasses(lines, depths, retract, same))
    ensures depths != [] ==> EndsRetracted(LinePasses(lines, depths, retract, same), retract)
  {
    if depths != [] {
      var n := |depths| - 1;
      var init := LinePasses(lines, depths[..n], retract, same);
      var pass := LinePass(lines, depths[n], retract, same);
      LinePassesFacts(lines, depths[..n], retract, same);
      LinePassFacts(lines, depths[n], retract, same);
      MotionsJoin(init, pass);
      JoinBlocks(init, pass, retract);
      StartsSafeJoin(init, pass);
    }
  }

  /** One line gives one command when it continues from the cursor and four,
      one of them a plunge to the pass's depth, when it does not. */
  lemma LineCmdsCounts(cursor: Point, ln: Line, depth: real, retract: real, same: (Point, Point) -> bool)
    ensures |LineCmds(cursor, ln, depth, retract, same)| == if same(ln.start, cursor) then 1 else 4
    ensures Plunges(LineCmds(cursor, ln, depth, retract, same)) == if same(ln.start, cursor) then [] else [depth]
    ensures !same(ln.start, cursor) ==>
              LineCmds(cursor, ln, depth, retract, same)
              == [RapidZ(retract), RapidXY(ln.start.x, ln.start.y), FeedZ(depth), FeedXY(ln.end.x, ln.end.y)]
  {
    var start, end := ln.start, ln.end;
    PlungesOne(FeedXY(end.x, end.y));
    if !same(start, cursor) {
      PlungesOne(RapidZ(retract));
      PlungesOne(RapidXY(start.x, start.y));
      PlungesOne(FeedZ(depth));
      var s1, s2, s3 := [RapidZ(retract)], [RapidXY(start.x, start.y)], [FeedZ(depth)];
      assert LineCmds(cursor, ln, depth, retract, same) == s1 + s2 + s3 + [FeedXY(end.x, end.y)];
      PlungesAppend(s1, s2);
      PlungesAppend(s1 + s2, s3);
      PlungesAppend(s1 + s2 + s3, [FeedXY(end.x, end.y)]);
    }
  }

  /** The size of a pass's line commands and its plunges: one command per
      continuing line, four per line that starts away from the cursor, and one
      plunge to the pass's depth for each of the latter. */
  lemma {:induction false} ChainCounts(lines: seq<Line>, depth: real, retract: real, same: (Point, Point) -> bool)
    ensures |Chain(lines, depth, retract, same)| == |lines| + 3 * Breaks(lines, same)
    ensures Plunges(Chain(lines, depth, retract, same)) == Repeat(depth, Breaks(lines, same))
  {
    if lines != [] {
      var n := |lines| - 1;
      var cont := same(lines[n].start, CursorBefore(lines, n));
      var step := LineCmds(CursorBefore(lines, n), lines[n], depth, retract, same);
      var b0 := Breaks(lines[..n], same);
      ChainCounts(lines[..n], depth, retract, same);
      PlungesAppend(Chain(lines[..n], depth, retract, same), step);
      LineCmdsCounts(CursorBefore(lines, n), lines[n], depth, retract, same);
      assert Breaks(lines, same) == b0 + (if cont then 0 else 1);
      assert Repeat(depth, Breaks(lines, same)) == Repeat(depth, b0) + (if cont then [] else [depth]);
    }
  }

  /** A chain of connected lines whose first line does not start at the cursor
      is cut with exactly one retract, one rapid move to its start and one
      plunge, then one cut per line to that line's end. */
  lemma {:induction false} ContinuousChain(lines: seq<Line>, depth: real, retract: real, same: (Point, Point) -> bool)
    requires |lines| > 0 && Connected(lines, same)
    requires !same(lines[0].start, Sentinel)
    ensures Chain(lines, depth, retract, same)
         == [RapidZ(retract), RapidXY(lines[0].start.x, lines[0].start.y), FeedZ(depth)] + Cuts(lines)
  {
    var n := |lines| - 1;
    if n > 0 {
      assert Connected(lines[..n], same);
      ContinuousChain(lines[..n], depth, retract, same);
      assert same(lines[n].start, CursorBefore(lines, n));
      assert Cuts(lines) == Cuts(lines[..n]) + [FeedXY(lines[n].end.x, lines[n].end.y)];
    }
  }

  /** The first line of a pass is reached with the cursor at the sentinel: it
      starts with a retract, a rapid move and a plunge unless its start point
      matches the sentinel, in which case it is cut with no retract and no plunge. */
  lemma {:induction false} FirstLineOfPass(lines: seq<Line>, depth: real, retract: real, same: (Point, Point) -> bool)
    requires |lines| > 0
    ensures var first := LineCmds(Sentinel, lines[0], depth, retract, same);
            |first| <= |Chain(lines, depth, retract, same)| &&
            Chain(lines, depth, retract, same)[..|first|] == first
  {
    var n := |lines| - 1;
    if n > 0 {
      FirstLineOfPass(lines[..n], depth, retract, same);
      assert lines[..n][0] == lines[0];
    }
  }

  lemma FirstLinePlunges(lines: seq<Line>, depth: real, retract: real, same: (Point, Point) -> bool)
    requires |lines| > 0
    ensures !same(lines[0].start, Sentinel) ==>
              |LinePass(lines, depth, retract, same)| >= 5 &&
              LinePass(lines, depth, retract, same)[..4]
              == [RapidZ(retract), RapidXY(lines[0].start.x, lines[0].start.y), FeedZ(depth), FeedXY(lines[0].end.x, lines[0].end.y)]
    ensures same(lines[0].start, Sentinel) ==>
              LinePass(lines, depth, retract, same)[0] == FeedXY(lines[0].end.x, lines[0].end.y)
  {
    FirstLineOfPass(lines, depth, retract, same);
    var c := Chain(lines, depth, retract, same);
    assert LinePass(lines, depth, retract, same)[..|c|] == c;
  }

  lemma LinePassesPlunges(lines: seq<Line>, depths: seq<real>, retract: real, same: (Point, Point) -> bool)
    ensures Plunges(LinePasses(lines, depths, retract, same)) == EachDepth(depths, Breaks(lines, same))
  {
    if depths != [] {
      var n := |depths| - 1;
      var c := Chain(lines, depths[n], retract, same);
      LinePassesPlunges(lines, depths[..n], retract, same);
      ChainCounts(lines, depths[n], retract, same);
      PlungesAppend(c, [RapidZ(retract)]);
      PlungesAppend(LinePasses(lines, depths[..n], retract, same), LinePass(lines, depths[n], retract, same));
    }
  }

  // ---------------------------------------------------------------------------
  // Circles
  // ---------------------------------------------------------------------------

  lemma {:induction false} StrokeCutsShape(pts: seq<Point>, depth: real)
    ensures pts == [] ==> StrokeCuts(pts, depth) == []
    ensures pts != [] ==>
              && |StrokeCuts(pts, depth)| == |pts| + 1
              && StrokeCuts(pts, depth)[0] == RapidXY(pts[0].x, pts[0].y)
              && StrokeCuts(pts, depth)[1] == FeedZ(depth)
              && forall k :: 1 <= k < |pts| ==> StrokeCuts(pts, depth)[k + 1] == FeedXY(pts[k].x, pts[k].y)
  {
    if |pts| > 1 {
      var n := |pts| - 1;
      StrokeCutsShape(pts[..n], depth);
      var s := StrokeCuts(pts, depth);
      forall k | 1 <= k < |pts| ensures s[k + 1] == FeedXY(pts[k].x, pts[k].y) {
        if k < n { assert pts[..n][k] == pts[k]; }
      }
    }
  }

  /** One circle at one depth: rapid to the first stroke vertex, plunge, one cut
      per further vertex in order, then one retract; an empty stroke list gives
      the retract alone. */
  lemma CirclePassShape(pts: seq<Point>, depth: real, retract: real)
    ensures pts == [] ==> CirclePass(pts, depth, retract) == [RapidZ(retract)]
    ensures pts != [] ==>
              var c := CirclePass(pts, depth, retract);
              && |c| == |pts| + 2
              && c[0] == RapidXY(pts[0].x, pts[0].y)
              && c[1] == FeedZ(depth)
              && (forall k :: 1 <= k < |pts| ==> c[k + 1] == FeedXY(pts[k].x, pts[k].y))
              && c[|pts| + 1] == RapidZ(retract)
  {
    StrokeCutsShape(pts, depth);
  }

  lemma {:induction false} StrokeCutsFacts(pts: seq<Point>, depth: real, retract: real)
    ensures Motions(StrokeCuts(pts, depth))
    ensures SafeBlock(StrokeCuts(pts, depth), retract)
    ensures Plunges(StrokeCuts(pts, depth)) == if pts == [] then [] else [depth]
  {
    if |pts| > 1 {
      var n := |pts| - 1;
      var init := StrokeCuts(pts[..n], depth);
      var step := [FeedXY(pts[n].x, pts[n].y)];
      StrokeCutsFacts(pts[..n], depth, retract);
      MotionsJoin(init, step);
      JoinBlocks(init, step, retract);
      PlungesAppend(init, step);
    } else if |pts| == 1 {
      var s := StrokeCuts(pts, depth);
      assert s == [RapidXY(pts[0].x, pts[0].y), FeedZ(depth)];
      assert IsMotion(s[0]) && IsMotion(s[1]);
      assert Plunges(s) == [] + Plunges(s[1..]);
      assert Plunges(s[1..]) == [depth] + Plunges(s[2..]);
    }
  }

  lemma CirclePassFacts(pts: seq<Point>, depth: real, retract: real)
    ensures Motions(CirclePass(pts, depth, retract))
    ensures SafeBlock(CirclePass(pts, depth, retract), retract)
    ensures EndsRetracted(CirclePass(pts, depth, retract), retract)
    ensures Plunges(CirclePass(pts, depth, retract)) == if pts == [] then [] else [depth]
  {
    var s := StrokeCuts(pts, depth);
    StrokeCutsFacts(pts, depth, retract);
    MotionsJoin(s, [RapidZ(retract)]);
    JoinBlocks(s, [RapidZ(retract)], retract);
    PlungesAppend(s, [RapidZ(retract)]);
  }

  lemma {:induction false} CirclePassesFacts(pts: seq<Point>, depths: seq<real>, retract: real)
    ensures Motions(CirclePasses(pts, depths, retract))
    ensures SafeBlock(CirclePasses(pts, depths, retract), retract)
    ensures depths == [] <==> CirclePasses(pts, depths, retract) == []
    ensures depths != [] ==> EndsRetracted(CirclePasses(pts, depths, retract), retract)
    ensures Plunges(CirclePasses(pts, depths, retract)) == if pts == [] then [] else depths
  {
    if depths != [] {
      var n := |depths| - 1;
      var init := CirclePasses(pts, depths[..n], retract);
      var pass := CirclePass(pts, depths[n], retract);
      CirclePassesFacts(pts, depths[..n], retract);
      CirclePassFacts(pts, depths[n], retract);
      MotionsJoin(init, pass);
      JoinBlocks(init, pass, retract);
      CirclePassesPlungesStep(init, pass, pts, depths);
    }
  }

  lemma CirclePassesPlungesStep(init: seq<Cmd>, pass: seq<Cmd>, pts: seq<Point>, depths: seq<real>)
    requires depths != []
    requires Plunges(init) == if pts == [] then [] else depths[..|depths| - 1]
    requires Plunges(pass) == if pts == [] then [] else [depths[|depths| - 1]]
    ensures Plunges(init + pass) == if pts == [] then [] else depths
  {
    PlungesAppend(init, pass);
    if pts != [] {
      assert depths[..|depths| - 1] + [depths[|depths| - 1]] == depths;
    }
  }

  lemma {:induction false} CirclesFacts(circles: seq<seq<Point>>, depths: seq<real>, retract: real)
    ensures Motions(Circles(circles, depths, retract))
    ensures SafeBlock(Circles(circles, depths, retract), retract)
    ensures depths == [] ==> Circles(circles, depths, retract) == []
    ensures Circles(circles, depths, retract) == [] || EndsRetracted(Circles(circles, depths, retract), retract)
    ensures Plunges(Circles(circles, depths, retract)) == CircleDepths(circles, depths)
  {
    if circles != [] {
      var n := |circles| - 1;
      var init := Circles(circles[..n], depths, retract);
      var passes := CirclePasses(circles[n], depths, retract);
      CirclesFacts(circles[..n], depths, retract);
      CirclePassesFacts(circles[n], depths, retract);
      MotionsJoin(init, passes);
      if passes != [] {
        JoinBlocks(init, passes, retract);
      } else {
        assert init + passes == init;
      }
      PlungesAppend(init, passes);
    }
  }

  // ---------------------------------------------------------------------------
  // Sketches and the program
  // ---------------------------------------------------------------------------

  lemma SketchFacts(sk: Sketch, depths: seq<real>, retract: real, same: (Point, Point) -> bool)
    ensures Motions(SketchCmds(sk, depths, retract, same))
    ensures SafeBlock(SketchCmds(sk, depths, retract, same), retract)
    ensures StartsSafe(SketchCmds(sk, depths, retract, same))
  {
    if IsSeat(sk) {
      var lp := LinePasses(sk.lines, depths, retract, same);
      var cs := Circles(sk.circles, depths, retract);
      LinePassesFacts(sk.lines, depths, retract, same);
      CirclesFacts(sk.circles, depths, retract);
      MotionsJoin(lp, cs);
      JoinBlocks(lp, cs, retract);
      if depths != [] {
        assert (lp + cs)[0] == lp[0];
      } else {
        assert lp + cs == [];
      }
    }
  }

  /** The plunges of a seat sketch, in order: first the line passes, one pass per
      depth in list order with one plunge per line that starts away from the
      cursor; then each circle in turn, cut at every depth in list order before
      the next circle starts. A sketch that is hidden or lacks the seat
      attribute contributes nothing. */
  lemma SketchPlunges(sk: Sketch, depths: seq<real>, retract: real, same: (Point, Point) -> bool)
    ensures !IsSeat(sk) ==> SketchCmds(sk, depths, retract, same) == []
    ensures IsSeat(sk) ==>
              Plunges(SketchCmds(sk, depths, retract, same))
              == EachDepth(depths, Breaks(sk.lines, same)) + CircleDepths(sk.circles, depths)
  {
    if IsSeat(sk) {
      LinePassesPlunges(sk.lines, depths, retract, same);
      CirclesFacts(sk.circles, depths, retract);
      PlungesAppend(LinePasses(sk.lines, depths, retract, same), Circles(sk.circles, depths, retract));
    }
  }

  /** With the add-in's configuration (retract height 0.5, depths -0.09 then
      -0.1), a seat sketch's lines are cut in a pass at -0.09 and then a pass at
      -0.1, so every line plunge to -0.09 comes before any to -0.1; its circles
      follow, each plunged to -0.09 and then to -0.1. */
  lemma ConfiguredSketch(sk: Sketch, same: (Point, Point) -> bool)
    requires IsSeat(sk)
    ensures LinePasses(sk.lines, CuttingDepths, RetractHeight, same)
            == LinePass(sk.lines, -0.09, 0.5, same) + LinePass(sk.lines, -0.1, 0.5, same)
    ensures var b := Breaks(sk.lines, same);
            Plunges(SketchCmds(sk, CuttingDepths, RetractHeight, same))
            == Repeat(-0.09, b) + Repeat(-0.1, b) + CircleDepths(sk.circles, CuttingDepths)
  {
    var b := Breaks(sk.lines, same);
    assert CuttingDepths[..1] == [-0.09];
    assert CuttingDepths[..1][..0] == [];
    assert LinePasses(sk.lines, CuttingDepths[..1], RetractHeight, same) == [] + LinePass(sk.lines, -0.09, 0.5, same);
    assert EachDepth(CuttingDepths[..1], b) == [] + Repeat(-0.09, b);
    assert EachDepth(CuttingDepths, b) == Repeat(-0.09, b) + Repeat(-0.1, b);
    SketchPlunges(sk, CuttingDepths, RetractHeight, same);
  }

  lemma {:induction false} AllSketchesFacts(sketches: seq<Sketch>, depths: seq<real>, retract: real, same: (Point, Point) -> bool)
    ensures Motions(AllSketches(sketches, depths, retract, same))
    ensures SafeBlock(AllSketches(sketches, depths, retract, same), retract)
    ensures StartsSafe(AllSketches(sketches, depths, retract, same))
    ensures (forall k :: 0 <= k < |sketches| ==> !IsSeat(sketches[k])) ==> AllSketches(sketches, depths, retract, same) == []
  {
    if sketches != [] {
      var n := |sketches| - 1;
      var init := AllSketches(sketches[..n], depths, retract, same);
      var sk := SketchCmds(sketches[n], depths, retract, same);
      AllSketchesFacts(sketches[..n], depths, retract, same);
      SketchFacts(sketches[n], depths, retract, same);
      MotionsJoin(init, sk);
      JoinBlocks(init, sk, retract);
      StartsSafeJoin(init, sk);
      if forall k :: 0 <= k < |sketches| ==> !IsSeat(sketches[k]) {
        assert forall k :: 0 <= k < n ==> sketches[..n][k] == sketches[k];
      }
    }
  }

  /** The program opens with exactly the five header commands and closes with
      exactly the three footer commands; everything in between is a tool motion;
      with no visible seat sketch nothing lies between them. */
  lemma ProgramFrame(sketches: seq<Sketch>, depths: seq<real>, retract: real, same: (Point, Point) -> bool)
    ensures var p := Program(sketches, depths, retract, same);
            && |p| >= 8
            && p[..5] == [Inches, SetFeed(60), RapidZ(retract), SpindleOn, Dwell(2)]
            && p[|p| - 3..] == [SpindleOff, Home, EndProgram]
            && (forall i :: 5 <= i < |p| - 3 ==> IsMotion(p[i]))
    ensures (forall k :: 0 <= k < |sketches| ==> !IsSeat(sketches[k])) ==>
              Program(sketches, depths, retract, same) == Header(retract) + Footer()
  {
    var body := AllSketches(sketches, depths, retract, same);
    var p := Program(sketches, depths, retract, same);
    AllSketchesFacts(sketches, depths, retract, same);
    assert p[5..|p| - 3] == body;
    forall i | 5 <= i < |p| - 3 ensures IsMotion(p[i]) {
      assert p[i] == body[i - 5];
    }
  }

  /** Safe motion throughout the program: every rapid horizontal move to a cut's
      start comes right after a retract to the retract height, and every plunge
      comes right after such a move. The move home is covered by ProgramHomesRetracted. */
  lemma ProgramGuarded(sketches: seq<Sketch>, depths: seq<real>, retract: real, same: (Point, Point) -> bool)
    ensures Guarded(Program(sketches, depths, retract, same), retract)
  {
    var h := Header(retract);
    var body := AllSketches(sketches, depths, retract, same);
    AllSketchesFacts(sketches, depths, retract, same);
    assert Guarded(h, retract);
    Join(h, body, retract);
    assert SafeBlock(Footer(), retract);
    Join(h + body, Footer(), retract);
  }

  /** A sketch's commands are empty or end with a retract. */
  lemma SketchEndsRetracted(sk: Sketch, depths: seq<real>, retract: real, same: (Point, Point) -> bool)
    ensures var s := SketchCmds(sk, depths, retract, same);
            s == [] || EndsRetracted(s, retract)
  {
    if IsSeat(sk) {
      var lp := LinePasses(sk.lines, depths, retract, same);
      var cs := Circles(sk.circles, depths, retract);
      LinePassesFacts(sk.lines, depths, retract, same);
      CirclesFacts(sk.circles, depths, retract);
      if cs == [] {
        assert lp + cs == lp;
      }
    }
  }

  /** All sketches' commands are empty or end with a retract. */
  lemma {:induction false} AllSketchesEndRetracted(sketches: seq<Sketch>, depths: seq<real>, retract: real, same: (Point, Point) -> bool)
    ensures var s := AllSketches(sketches, depths, retract, same);
            s == [] || EndsRetracted(s, retract)
  {
    if sketches != [] {
      var n := |sketches| - 1;
      var init := AllSketches(sketches[..n], depths, retract, same);
      var sk := SketchCmds(sketches[n], depths, retract, same);
      AllSketchesEndRetracted(sketches[..n], depths, retract, same);
      SketchEndsRetracted(sketches[n], depths, retract, same);
      if sk == [] {
        assert init + sk == init;
      }
    }
  }

  /** The move home (g0 x0 y0) starts at the retract height: the last motion
      before it is a retract, which either closed the last cut or is the
      header's lift when nothing was cut; only the spindle stop lies between. */
  lemma ProgramHomesRetracted(sketches: seq<Sketch>, depths: seq<real>, retract: real, same: (Point, Point) -> bool)
    ensures var p := Program(sketches, depths, retract, same);
            && p[|p| - 2] == Home && p[|p| - 3] == SpindleOff
            && exists j :: 0 <= j < |p| - 2 && p[j] == RapidZ(retract)
                           && forall i :: j < i < |p| - 2 ==> !IsMotion(p[i])
  {
    var p := Program(sketches, depths, retract, same);
    var body := AllSketches(sketches, depths, retract, same);
    AllSketchesEndRetracted(sketches, depths, retract, same);
    assert p == Header(retract) + body + Footer();
    if body == [] {
      assert p == Header(retract) + Footer();
      forall i | 2 < i < |p| - 2 ensures !IsMotion(p[i]) {
        assert i == 3 || i == 4 || i == 5;
      }
      assert p[2] == RapidZ(retract);
    } else {
      var j := 5 + |body| - 1;
      assert p[j] == body[|body| - 1];
      forall i | j < i < |p| - 2 ensures !IsMotion(p[i]) {
        assert i == |p| - 3;
      }
    }
  }

  lemma ConstantsText(inch: real -> string)
    ensures Render(SetFeed(FeedRate), inch) == "g1 f60"
    ensures Render(Dwell(SpinUpSeconds), inch) == "g4 p2"
  {
    assert NatText(60) == "60" by {
      assert DigitChar(6) == '6' && DigitChar(0) == '0';
      assert NatText(6) == "6";
    }
    assert NatText(2) == "2" by {
      assert DigitChar(2) == '2';
    }
  }

  /** The header is written as exactly these five lines. */
  lemma HeaderText(retract: real, inch: real -> string)
    ensures RenderAll(Header(retract), inch) == Lines(["g20", "g1 f60", "g0 z" + inch(retract), "m4", "g4 p2"])
  {
    ConstantsText(inch);
    var h := Header(retract);
    assert seq(|h|, i requires 0 <= i < |h| => Render(h[i], inch)) == ["g20", "g1 f60", "g0 z" + inch(retract), "m4", "g4 p2"];
  }

  /** The footer is written as exactly these three lines. */
  lemma FooterText(inch: real -> string)
    ensures RenderAll(Footer(), inch) == Lines(["m5", "g0 x0 y0", "m30"])
  {
    var f := Footer();
    assert seq(|f|, i requires 0 <= i < |f| => Render(f[i], inch)) == ["m5", "g0 x0 y0", "m30"];
  }

  /** The program text opens with exactly the five header lines and closes with
      exactly the three footer lines. */
  lemma ProgramText(sketches: seq<Sketch>, depths: seq<real>, retract: real, same: (Point, Point) -> bool, inch: real -> string)
    ensures RenderAll(Program(sketches, depths, retract, same), inch)
         == Lines(["g20", "g1 f60", "g0 z" + inch(retract), "m4", "g4 p2"])
            + RenderAll(AllSketches(sketches, depths, retract, same), inch)
            + Lines(["m5", "g0 x0 y0", "m30"])
  {
    var body := AllSketches(sketches, depths, retract, same);
    RenderAllAppend(Header(retract) + body, Footer(), inch);
    RenderAllAppend(Header(retract), body, inch);
    HeaderText(retract, inch);
    FooterText(inch);
  }

  /** Generation yields a non-empty text whatever the sketches, so the
      empty-program abort of the Cut Seat command never comes from the planner. */
  lemma ProgramTextNonEmpty(sketches: seq<Sketch>, depths: seq<real>, retract: real, same: (Point, Point) -> bool, inch: real -> string)
    ensures RenderAll(Program(sketches, depths, retract, same), inch) != ""
  {
    RenderAllEmpty(Program(sketches, depths, retract, same), inch);
  }

  /** A unit square (in the sketch's unit) of four connected lines, cut once at
      -0.0625 with a retract height of 0.25: a lift, a rapid move to (0, 0), one
      plunge, four cuts and one closing retract. */
  lemma SquareScenario()
    ensures var o, a, b, c := Point(0.0, 0.0, 0.0), Point(1.0, 0.0, 0.0), Point(1.0, 1.0, 0.0), Point(0.0, 1.0, 0.0);
            var square := Sketch(true, true, [Line(o, a), Line(a, b), Line(b, c), Line(c, o)], []);
            Program([square], [-0.0625], 0.25, Exact)
            == Header(0.25)
               + [RapidZ(0.25), RapidXY(0.0, 0.0), FeedZ(-0.0625),
                  FeedXY(1.0, 0.0), FeedXY(1.0, 1.0), FeedXY(0.0, 1.0), FeedXY(0.0, 0.0),
                  RapidZ(0.25)]
               + Footer()
  {
    var o, a, b, c := Point(0.0, 0.0, 0.0), Point(1.0, 0.0, 0.0), Point(1.0, 1.0, 0.0), Point(0.0, 1.0, 0.0);
    var lines := [Line(o, a), Line(a, b), Line(b, c), Line(c, o)];
    var square := Sketch(true, true, lines, []);
    assert Connected(lines, Exact);
    ContinuousChain(lines, -0.0625, 0.25, Exact);
    assert Cuts(lines) == [FeedXY(1.0, 0.0), FeedXY(1.0, 1.0), FeedXY(0.0, 1.0), FeedXY(0.0, 0.0)];
    assert [-0.0625][..0] == [];
    assert [square][..0] == [];
    var pass := LinePass(lines, -0.0625, 0.25, Exact);
    assert LinePasses(lines, [-0.0625], 0.25, Exact) == pass;
    assert SketchCmds(square, [-0.0625], 0.25, Exact) == pass + [];
    assert AllSketches([square], [-0.0625], 0.25, Exact) == pass;
  }
}

=== FILE: wrappers.dfy ===
/** Optional values and failure-carrying results, used wherever the source either
    returns nothing (Python's None) or raises. */
module Wrappers {

  datatype Option<+T> = None | Some(value: T)

  datatype Result<+R, +E> = Success(value: R) | Failure(error: E)
}
